=== FILE: README.md ===
# Chat relay: protocol and routing model

A Dafny model of the line-based chat relay in `src/MyServer.java`,
`src/MyClient.java` and `src/LoginWindow.java`, with proofs about it. The
server keeps a registry of connected users, each with a writer. The model
turns each writer into an outbox: the sequence of lines written to it so
far. Every server step is a pure function from the registry, the sending
user and one inbound line to a new registry. Its contract states which
outboxes gain which lines and that the others are unchanged.

Modules, one per concern of the program:

- `Options`: the optional-value datatype.
- `Text`: the Java string operations the program relies on. These are
  `split(sep, 2)`, `split(sep)` with its trailing-empty rule, `trim`,
  `indexOf`, ASCII case folding and `String.join`, together with the
  splitting and trimming lemmas the round trips need.
- `Protocol`: the fixed replies, the server's outbound line formats,
  `handleMessage`'s reading of an inbound line (`ParseCommand`) and
  `extractActualMessage`.
- `ContentFilter`: `containsBannedPhrase` and its whole-token
  characterisation.
- `Registry`: the registry, its delivery primitive, the roster sent by
  `sendClientList`, and the case-insensitive `findFirst` name lookup.
- `Router`: registration, `handleMessage` dispatch, the four addressing
  modes, `handleClientDisconnect`, one client's read loop and one whole
  session.
- `Client`: `sendMessage`, `processMessage` and its decoders, the roster
  parse of `updateUserComboBox`, and the registration-reply check.
- `Login`: `Integer.parseInt`, the ordered checks of `connect()`, and the
  classification of a refused registration.
- `Exchange`: how the two ends fit together.
  - Every line the client encodes is read by the server as the command the
    user chose, under the restrictions on names listed in "## Left out".
  - The lines the server writes are shown by the client as intended, under
    the same restrictions. The exceptions are the roster, which the client
    cuts one character early (see "## Findings"), and the all-except
    content, which is shown after one extra space.
  - Each addressing mode is proved end to end, from the typed text to the
    lines the server delivers and to what the client shows for them.
  - The login form reports the server's registration decision.

The registry's hash map has no specified iteration order. The model
carries it explicitly as the `order` field. `findFirst`, `forEach` and the
roster's name order all follow it, and a newly registered name is placed
last.

## Model

| member | source | states |
|---|---|---|
| Router.Register | src/MyServer.java:218-235 | A name already registered exactly is answered `USERNAME_TAKEN` and the registry is unchanged. Otherwise the name is stored as sent and its connection gets `USERNAME_OK` and then a roster. Every client already present gets exactly one new roster line, listing every other name once and never its own. |
| Router.Admit | src/MyServer.java:227-233 | The new name's outbox holds only the `USERNAME_OK` reply. Every other outbox is unchanged. |
| Router.Disconnect | src/MyServer.java:397-409 | Only a registered name is removed. Then each remaining client gets one fresh roster listing every other remaining name. An unknown name leaves the registry untouched. |
| Router.DisconnectIdempotent | src/MyServer.java:397-399 | A second disconnect of the same name changes nothing. |
| Router.Serve | src/MyServer.java:237-250 | After the read loop and its teardown, exactly the sender's name has left the registry. |
| Router.Session | src/MyServer.java:211-252 | A taken name leaves the registry as it was. An accepted one is answered `USERNAME_OK`, and afterwards exactly the previously registered names remain. |
| Router.Dispatch | src/MyServer.java:255-297 | The two control lines act before the filter. A blocked line adds exactly the banned-content notice to the sender's outbox and nothing else. A malformed or unrouted line changes nothing. Every other line goes to its addressing mode with the parsed address and body. |
| Router.BroadcastAll | src/MyServer.java:346-355 | Every registered client, the sender included, gains exactly one line `MESSAGE_ALL <sender>: <body>`, appended after its earlier lines. |
| Router.SendDirect | src/MyServer.java:357-372 | When the trimmed recipient matches a registered name ignoring case, that client gains the "from" line. The sender gains the confirmation naming the recipient as registered. No other outbox changes. With no match only the sender hears, and the notice quotes the name as received. |
| Router.SendMultiple | src/MyServer.java:299-319 | Each registered name gains one "from" line for every comma piece that names it exactly once trimmed, case-sensitively. The sender then gains one confirmation listing the hits in input order, or the none-found notice. |
| Router.Hits | src/MyServer.java:302-308 | The hits are registered names, they keep the order of the trimmed pieces they come from, and each name occurs among them exactly as often as the pieces name it. |
| Router.DeliverEach | src/MyServer.java:302-309 | Each name gets the line once per occurrence in the list. Every other outbox is unchanged. |
| Router.BroadcastExcept | src/MyServer.java:322-343 | When the trimmed name matches ignoring case, every client but the first match gains the except line naming that client as registered, the sender included unless excluded, and the match's outbox is unchanged. Otherwise only the sender gains the not-found notice. |
| Registry.SendRoster | src/MyServer.java:411-419 | Every registered client gains one `CLIENT_LIST ` line listing every other registered name exactly once and never its own. |
| Registry.RosterListsOthers | src/MyServer.java:413-416 | The names listed to a client are exactly the other registered names, without repeats. |
| Registry.Resolve | src/MyServer.java:323-326 | The lookup finds a registered name equal to the trimmed name ignoring case, the first such in iteration order, and finds none only when no such name exists. |
| Registry.FirstMatch | src/MyServer.java:358-361 | The match found is the first in iteration order. Nothing before it matches. |
| Registry.ResolveUnique | src/MyServer.java:323-326 | When only one registered name matches, the iteration order does not matter and that name is found. |
| Registry.Without | src/MyServer.java:414-416 | Filtering a name out keeps exactly the other names. The result is a subsequence of the input, so their order is kept, and it introduces no repeats. |
| Protocol.ParseCommand | src/MyServer.java:276-295 | Each routed reading rebuilds the line from its prefix (cut where the server cuts it), the address, `": "` and the body. The address never holds `": "`. A routing prefix other than `MESSAGE_ALL ` with no separator anywhere is malformed, and a line with no prefix is unrouted. |
| Protocol.ExtractActualMessage | src/MyServer.java:374-388 | After `MESSAGE_ALL ` the inspected text is the rest of the line. After another routing prefix it is empty or follows a `": "` that ends the line with it. Any other line is inspected whole. `Protocol.FilterSeesBody` pairs it with the server's parse. |
| Protocol.SplitAddressed | src/MyServer.java:280-281 | The text past the prefix is split at its first `": "`. A line without a split holds no separator at all. |
| Protocol.FilterSeesBody | src/MyServer.java:374-388 | The filter inspects the body of an addressed command, the empty text for a malformed one, and the whole line otherwise. |
| ContentFilter.ContainsBannedPhrase | src/MyServer.java:390-394 | A message is blocked exactly when some banned phrase is a whole space-delimited token of its lower-cased text. |
| ContentFilter.MatchesIffToken | src/MyServer.java:392-393 | The server's four string tests say the same as the whole-token definition. |
| ContentFilter.SpamInsideWordPasses | src/MyServer.java:390-394 | With the phrase "spam", "spammer" passes. |
| ContentFilter.SpamBlockedMidSentence | src/MyServer.java:390-394 | With the phrase "spam", "buy spam" and "buy spam now" are blocked. |
| ContentFilter.SpamBlockedAsToken | src/MyServer.java:390-394 | With the phrase "spam", "spam" and "spam now" are blocked. |
| ContentFilter.SpamBlockedAnyCase | src/MyServer.java:391 | The case of the message does not matter: "Buy SPAM now" is blocked. |
| Text.SplitOnce | src/MyServer.java:280 | Splitting at the first separator: none exactly when the separator is absent, and otherwise the pieces rebuild the text around the first occurrence. |
| Text.SplitOnceRoundTrip | src/MyServer.java:280 | When the head holds no separator, splitting `head + sep + tail` gives back `head` and `tail`, whatever the tail holds. |
| Text.Split | src/MyServer.java:287 | A text without the separator splits into itself. Otherwise the pieces are those between separators, less trailing empty ones, and no piece holds the separator. |
| Text.SplitJoinRoundTrip | src/MyClient.java:257 | Splitting a join gives back the joined pieces when none holds the separator and the last is not empty. |
| Text.PiecesOfJoin | src/MyServer.java:412-416 | The pieces of a join are exactly the joined names. |
| Text.Trim | src/MyServer.java:303 | The result has no blank at either end, and only blanks were removed around it. |
| Text.TrimIdempotent | src/MyServer.java:325 | Trimming twice is trimming once. |
| Text.IndexOf | src/MyClient.java:282 | The index found is an occurrence with no earlier one, and there is none exactly when the text does not occur. |
| Text.FirstOccurrence | src/MyClient.java:282-285 | In `x + sep + y`, with no separator in `x` and a separator with no self-overlap, the first separator is the one after `x`. |
| Client.Encode | src/MyClient.java:213-242 | A line is sent exactly when the trimmed text is not empty and the mode's target is present: a selected user, or a non-empty selection. The line always ends with the trimmed text. |
| Client.ProcessMessage | src/MyClient.java:267-279 | `CLIENT_LIST` lines go to the roster, with the text after those 11 characters. A personal line is shown with exactly its prefix removed. A broadcast is shown only when its pieces rebuild the line. Any line without a known prefix is ignored. |
| Client.DecodeAll | src/MyClient.java:281-290 | A broadcast line is ignored exactly when it has no `": "`. Otherwise the sender runs up to the first `": "` and never holds one, and sender and content rebuild the line. |
| Client.DecodeExcept | src/MyClient.java:298-309 | Decoding needs both markers. The fields are cut at the first `"(except "` and the first `"):"`: the sender is the trimmed text from index 14 to the first marker, the excluded name runs from the end of that marker to the first `"):"` and so holds none, and the content is everything after it. Conversely, both markers with `"(except "` ending no later than the first `"):"` always give a decoding. |
| Client.RosterEntries | src/MyClient.java:252-264 | An empty text gives no entries. Otherwise the entries are exactly the pieces of the text's `", "` split other than the client's own name, in their order. |
| Client.RosterEntriesCorrected | src/MyClient.java:270 | The same parse after removing the one extra leading space never lists the client itself. |
| Client.CheckRegistrationReply | src/MyClient.java:73-80 | Only `USERNAME_OK` is accepted. `USERNAME_TAKEN`, and only it, gives the already-taken error; every other reply, or none, gives the registration error. |
| Login.ParseInt | src/LoginWindow.java:75 | A parse succeeds only for an optional sign followed by digits whose value fits in 32 bits. A leading '-' gives a non-positive value, and every run of one to nine digits parses to its decimal value. |
| Login.ParseShow | src/LoginWindow.java:75 | Every 32-bit value written in decimal parses back to itself. |
| Login.ParseIntEdges | src/LoginWindow.java:75-82 | "65535", "65536" and "-1" parse to their values. "2147483648" and "77x" are format errors. |
| Login.Validate | src/LoginWindow.java:63-90 | Each notice is shown exactly when every earlier check passed and its own failed: empty fields, then port format, then port range, then host. The form proceeds exactly when every check passes, carrying the trimmed host, the parsed in-range port and the trimmed, non-empty name. |
| Login.PortDecides | src/LoginWindow.java:73-83 | With a valid host and name, the outcome depends only on whether the port parses and whether it lies in range. |
| Login.PortInRange | src/LoginWindow.java:76-79 | A decimal port is accepted exactly from 0 to 65535, bounds included, and above that is a range error while it fits in 32 bits. |
| Login.PortNegative | src/LoginWindow.java:76-79 | Every negative port that fits in 32 bits is a range error. |
| Login.PortBeyondInt | src/LoginWindow.java:80-82 | A port number past 32 bits is a format error, not a range error. |
| Login.ClassifyRefusal | src/LoginWindow.java:99-106 | The taken notice is shown exactly when the refusal's message holds "already taken". Every other refusal shows the generic connection failure. |
| Login.ClientRefusalsClassified | src/MyClient.java:75-80 | The client's taken error is reported as a taken name. Its registration error is reported as a connection failure. |
| Login.Connect | src/LoginWindow.java:63-117 | A failed check shows its notice. The chat opens exactly when the form is valid, the server is reachable and the reply is `USERNAME_OK`, and the taken notice is shown exactly when the reply is `USERNAME_TAKEN`. After valid checks, the generic connection failure is shown exactly when the server is unreachable or the reply is neither of those (or missing). |
| Exchange.ParseAll | src/MyServer.java:276-278 | The server reads `MESSAGE_ALL t` as a broadcast of `t`, and the filter inspects `t`. |
| Exchange.ParseDirect | src/MyServer.java:279-283 | The server reads `MESSAGE_TO u: t` as a direct message of `t` to `u` when `u` holds no `": "`, even if `t` holds one. |
| Exchange.ParseExcept | src/MyServer.java:290-294 | When `u` holds no `": "`, the server reads `MESSAGE_EXCEPT u: t` as excluding `" " + u`, because its cut is one character short. |
| Exchange.ParseMultiple | src/MyServer.java:284-289 | When `l` holds no `": "`, the server reads `MESSAGE_TO_MULTIPLE l: t` with the list `" " + l`. |
| Exchange.ToAllRoundTrip | src/MyClient.java:217-218 | A typed message to everyone reaches the server as a broadcast of the trimmed text, and the filter sees exactly that text. |
| Exchange.ToUserRoundTrip | src/MyClient.java:220-225 | A direct message reaches the server addressed to the trimmed selected user, with the whole trimmed text, when that name holds no `": "`. |
| Exchange.AllExceptRoundTrip | src/MyClient.java:221-227 | An all-except message reaches the server with the excluded name one space longer than sent. Trimming it, as the lookup does, recovers the selected name. This holds when the trimmed name holds no `": "`. |
| Exchange.ToMultipleRoundTrip | src/MyClient.java:231-236 | A multi-user message reaches the server as the selected names, one comma piece each. Every name is counted as often as it was selected. |
| Exchange.SplitSelection | src/MyServer.java:287 | The server's comma split of the received list gives back the selection, the first name with one extra space, when no name holds a comma and the last name is not empty. |
| Exchange.CountNamedSpaced | src/MyServer.java:303 | The extra leading space on the first piece does not change which name it counts for. |
| Exchange.BroadcastDecoded | src/MyClient.java:281-290 | A `MESSAGE_ALL` line is shown with its sender and text recovered when the sender holds no `": "`. |
| Exchange.BroadcastColonSender | src/MyClient.java:281-290 | When the sender's name holds `": "`, a `MESSAGE_ALL` line is still shown as a broadcast, but under a sender other than the one who sent it: the decoding restriction is real, not a gap in the proof. |
| Exchange.PersonalDecoded | src/MyClient.java:292-296 | Every personal line is shown with exactly its 17-character prefix removed. |
| Exchange.PersonalFromDecoded | src/MyServer.java:365 | The recipient of a direct message is shown `from <sender>: <text>`. |
| Exchange.PersonalToDecoded | src/MyServer.java:366 | The sender of a direct message is shown `To <recipient>: <text>`. |
| Exchange.ExceptDecoded | src/MyClient.java:298-309 | An except line from a sender without parentheses or edge blanks, excluding a name without `)`, is shown with that sender and excluded name, and with the content after one extra space. |
| Exchange.RosterTextOf | src/MyClient.java:269-270 | The roster text the client parses starts with the space that follows `CLIENT_LIST`. |
| Exchange.RosterPhantomEntry | src/MyClient.java:256-263 | As written, a client alone on the server is shown one blank entry instead of an empty roster. |
| Exchange.RosterAsWritten | src/MyClient.java:252-264 | As written, the first other name is shown with a leading space, so the entries never equal the names the server sent. |
| Exchange.RosterCorrectedRoundTrip | src/MyClient.java:252-264 | With the whole prefix removed, the entries are exactly the names the server listed less the client's own, and none for an empty roster. |
| Exchange.SpacedNameResolves | src/MyServer.java:325 | The space the server leaves before an excluded name does not change which client it resolves to. |
| Exchange.BroadcastEndToEnd | src/MyServer.java:346-355 | A message to everyone that passes the filter is shown by every client, the sender included, as one broadcast of the trimmed text, when the sender's name holds no `": "`. A blocked one only earns the sender the banned-content notice. |
| Exchange.DirectEndToEnd | src/MyServer.java:357-372 | When the trimmed selected name holds no `": "`, a direct message reaches the first client matching the selected name ignoring case, and the sender sees the confirmation. Otherwise the sender is told the trimmed name was not found. The recipient is shown `from <sender>: <text>` and the sender `To <recipient>: <text>`. |
| Exchange.ExceptEndToEnd | src/MyServer.java:322-343 | Every client but the first match of the selected name shows the message, naming the sender and the excluded client. The match gets nothing. With no match, the notice quotes the name with the server's extra space. |
| Exchange.ExceptDelivered | src/MyServer.java:328-336 | Any unfiltered line that the server reads as excluding `" " + Trim(user)` is delivered and shown as in `Exchange.ExceptEndToEnd`, whatever client produced it. This holds under the same conditions on the sender and the registered names. |
| Exchange.MultipleEndToEnd | src/MyServer.java:299-319 | Each registered client gets one copy for every time the selection names it once trimmed, case-sensitively, and the sender one confirmation. Each copy is shown as `from <sender>: <text>`. |
| Exchange.LoginEndToEnd | src/LoginWindow.java:92-106 | With a valid form and a reachable server, the chat opens exactly when the trimmed name was free. The taken notice is shown exactly when it was already registered. |

## Left out

- Sockets, readers and writers, the accept loop, executors and virtual threads, `CompletableFuture`, Swing, logging, shutdown and `ClientLauncher.java` are all plumbing or UI. A write to a connection is modelled as an append to its outbox.
- Concurrency: the server is modelled as sequential steps. The check-then-put in `handleClient` is not atomic in the program, and the model gives only its single-threaded outcome.
- Configuration loading is file I/O. The banned phrases are a parameter, taken as already trimmed and lower-cased by the loader.
- Login.ParseInt: accepts only the ASCII digits '0' to '9'. Java's `Integer.parseInt` reads digits with `Character.digit`, so it also accepts other Unicode decimal digits: a fullwidth "８０８０" parses to 8080 in the program, but the model reports a port-format error.
- Case folding is modelled on ASCII only. Java's full Unicode `toLowerCase` and `equalsIgnoreCase`, and the locale-sensitive lower-casing of `toLowerCase()` (the Turkish dotted and dotless I), are not modelled. `trim` is modelled exactly: it removes the characters up to and including the space.
- Host resolution and the socket connect are I/O. They are the parameters `resolves` and `reachable` of `Login.Validate` and `Login.Connect`.
- `handleMessage` runs its body as a task after the read loop has moved on, so the sender may already have disconnected. A banned line, and the not-found paths, then fail with a null reference before delivering anything. The routing paths deliver first and fail only when they write to the sender: a broadcast reaches every other client, a direct message its recipient, and a multi-user message each hit. An all-except line whose name is found never touches the sender and is delivered in full. `Router.Dispatch` requires a registered sender, so the model leaves out these partial deliveries.
- A `null` first line (the peer closes before sending a name) is not modelled. Names are strings.
- Clearing and refocusing the message field after sending is UI state, not protocol.
- The client's "Connection error" wrapping of an I/O failure during construction is left out, since it comes from I/O. It would be classified as the generic failure, like any message without "already taken".
- `REQUEST_USER_LIST`: the code resends every client's roster, not only the requester's, and the model follows the code.
- `Router.Serve`: states only which names remain after the loop and its teardown, not the lines delivered on the way. Those are stated one step at a time by `Router.Dispatch`.
- `Router.Session`: states only the reply and the final key set, for the same reason.
- `Client.DecodeExcept`: when `"):"` occurs before the end of `"(except "`, the program's `substring` throws inside the listener task and the line is lost. The model returns no decoding in that case.
- Exchange.ExceptEndToEnd: proved only when the sender has no parentheses and no blank at either end, and no registered name holds `)`. Other names can make the client cut the line in the wrong place.
- Exchange.ExceptDelivered: proved only under the same conditions on the sender and the registered names as `Exchange.ExceptEndToEnd`.
- Exchange.ExceptDecoded: proved only when the sender has no parentheses and no blank at either end, and the excluded name holds no `)`, for the same reason.
- Exchange.ToMultipleRoundTrip: proved only for selections whose names hold no comma or colon and whose last name is not empty. Java's `split` drops trailing empty pieces.
- Exchange.MultipleEndToEnd: proved only under the same conditions on the selection as `Exchange.ToMultipleRoundTrip`.
- Exchange.SplitSelection: proved only when no selected name holds a comma and the last name is not empty. A name with a comma is split into several pieces, and an empty last name is dropped by `split`.
- Exchange.RosterAsWritten: proved only when every other registered name is non-empty and holds no `", "`, for the reason given for `Exchange.RosterCorrectedRoundTrip`.
- Exchange.RosterCorrectedRoundTrip: proved only when every other registered name is non-empty and holds no `", "`. Registration accepts any first line as a name. A name "a, b" is split into two roster entries on every other client, and an empty name is listed as an empty entry, so for such names the roster the client shows does not match the registry.
- Exchange.ParseExcept: proved only when the excluded name holds no `": "`. Otherwise the server splits at the `": "` inside the name and reads a different name and body.
- Exchange.ParseMultiple: proved only when the list holds no `": "`, for the same reason.
- Exchange.ToUserRoundTrip: proved only when the trimmed selected name holds no `": "`. Otherwise the server splits at the `": "` inside the name.
- Exchange.AllExceptRoundTrip: proved only when the trimmed selected name holds no `": "`, for the same reason.
- Exchange.DirectEndToEnd: proved only when the trimmed selected name holds no `": "`, for the same reason.
- Exchange.ExceptEndToEnd: also requires the trimmed selected name to hold no `": "`, for the same reason.
- Exchange.BroadcastEndToEnd: proved only when the sender's name holds no `": "`. Registration accepts any first line as a name. For a sender named "a: b", every client decodes `MESSAGE_ALL a: b: hi` at the first `": "` and shows sender "a" with content "b: hi". `Exchange.BroadcastColonSender` proves that every such sender is shown under another name.
- Exchange.BroadcastDelivered: proved only when the sender's name holds no `": "`, for the reason given for `Exchange.BroadcastEndToEnd`.
- Exchange.BroadcastDecoded: proved only when the sender's name holds no `": "`, for the same reason.

## Findings

| source | as written | input that shows it | evidently intended | confidence | as-written member | corrected member |
|---|---|---|---|---|---|---|
| src/MyClient.java:270 | The roster text is taken with `substring(11)`, after `CLIENT_LIST` but before the space the server writes after it (src/MyServer.java:413). The first name keeps a leading space and an empty roster yields one blank entry. | The server sends `CLIENT_LIST bob, carol` to alice: the client lists `" bob"` and `"carol"`. A lone client receives `CLIENT_LIST ` and lists `" "`. | Cut after the full 12-character `CLIENT_LIST ` prefix, so the entries are exactly the other users. | not executed | Exchange.RosterAsWritten | Exchange.RosterCorrectedRoundTrip |

=== FILE: client.dfy ===
/** The chat client's side of the protocol: the line it sends for each
    addressing mode, its reading of the lines the server sends, its roster
    parsing, and its check of the registration reply. */
module Client {
  import opened Options
  import opened Text
  import opened Protocol
  import opened Registry

  // ---------------------------------------------------------------------
  // Outbound.
  // ---------------------------------------------------------------------

  /** The four entries of the client's mode selector. */
  datatype Mode = All | ToUser | ToMultipleUsers | AllExceptUser

  /** `sendMessage`: the typed text is trimmed and nothing is sent when it
      is empty; the single-user modes need a selected user (sent trimmed),
      and the multi-user mode a non-empty selection (sent as is, joined by
      commas). The line always ends with the trimmed text. */
  function Encode(mode: Mode, text: string, selected: Option<string>, selection: seq<string>)
    : (line: Option<string>)
    ensures line.Some? <==>
              && Trim(text) != ""
              && match mode
                 case All => true
                 case ToUser => selected.Some?
                 case AllExceptUser => selected.Some?
                 case ToMultipleUsers => |selection| > 0
    ensures line.Some? ==> EndsWith(line.value, Trim(text))
  {
    var t := Trim(text);
    if t == "" then None
    else
      var line :=
        match mode
        case All => Some(ALL_PREFIX + t)
        case ToUser =>
          if selected.None? then None else Some(TO_PREFIX + Trim(selected.value) + SEP + t)
        case AllExceptUser =>
          if selected.None? then None else Some(EXCEPT_PREFIX + Trim(selected.value) + SEP + t)
        case ToMultipleUsers =>
          if |selection| == 0 then None else Some(MULTIPLE_PREFIX + Join(",", selection) + SEP + t);
      assert line.Some? ==> line.value[|line.value| - |t|..] == t;
      line
  }

  // ---------------------------------------------------------------------
  // Inbound.
  // ---------------------------------------------------------------------

  /** The client tests for `CLIENT_LIST` without the space that follows it
      on the wire. */
  const LIST_TEST := "CLIENT_LIST"
  const EXCEPT_MARK := "(except "
  const CLOSE_MARK := "):"

  /** What `processMessage` does with one line from the server. */
  datatype Incoming =
    | RosterText(list: string)
    | Broadcast(sender: string, content: string)
    | Personal(text: string)
    | ExceptBroadcast(sender: string, excluded: string, content: string)
    | Ignored

  /** `processMessageAll`: the sender runs from index 12 to the first ": ",
      the content is everything after it, and a line without ": " is
      ignored. The decoded sender never holds ": ", and the pieces rebuild
      the line. */
  function DecodeAll(line: string): (r: Option<(string, string)>)
    requires StartsWith(line, ALL_PREFIX)
    ensures r.None? <==> !Contains(line, SEP)
    ensures r.Some? ==> line == AllLine(r.value.0, r.value.1) && !Contains(r.value.0, SEP)
  {
    match IndexOf(line, SEP)
    case None => None
    case Some(i) =>
      assert i >= |ALL_PREFIX| by {
        assert line[i] == line[i..i + 2][0] == SEP[0] == ':';
        forall j | 0 <= j < |ALL_PREFIX|
          ensures line[j] != ':'
        {
          assert line[j] == line[..|ALL_PREFIX|][j] == ALL_PREFIX[j];
        }
      }
      var sender := line[|ALL_PREFIX|..i];
      assert line == ALL_PREFIX + sender + SEP + line[i + 2..];
      NoOccurrenceInSlice(line, SEP, |ALL_PREFIX|, i);
      Some((sender, line[i + 2..]))
  }

  /** `processMessageExcept`: both markers must be present. The sender is the
      trimmed text from index 14 to "(except ", the excluded name runs from
      there to the first "):", and the content follows. When "):" comes
      before the end of "(except " the source's `substring` throws inside
      the listener task and the line is silently lost. */
  function DecodeExcept(line: string): (r: Option<(string, string, string)>)
    requires StartsWith(line, EXCEPT_PREFIX)
    ensures r.Some? ==> Contains(line, EXCEPT_MARK) && Contains(line, CLOSE_MARK)
    ensures r.Some? ==> Trim(r.value.0) == r.value.0 && !Contains(r.value.1, CLOSE_MARK)
    ensures r.Some? ==> EndsWith(line, CLOSE_MARK + r.value.2)
    ensures !Contains(line, EXCEPT_MARK) || !Contains(line, CLOSE_MARK) ==> r.None?
    ensures Contains(line, EXCEPT_MARK) && Contains(line, CLOSE_MARK)
            && IndexOf(line, EXCEPT_MARK).value + |EXCEPT_MARK| <= IndexOf(line, CLOSE_MARK).value ==>
              r.Some?
    ensures r.Some? ==>
              var a, b := IndexOf(line, EXCEPT_MARK).value, IndexOf(line, CLOSE_MARK).value;
              && EXCEPT_CUT <= a && a + |EXCEPT_MARK| <= b && b + |CLOSE_MARK| <= |line|
              && r.value.0 == Trim(line[EXCEPT_CUT..a])
              && r.value.1 == line[a + |EXCEPT_MARK|..b]
              && r.value.2 == line[b + |CLOSE_MARK|..]
  {
    var open, close := IndexOf(line, EXCEPT_MARK), IndexOf(line, CLOSE_MARK);
    if open.None? || close.None? || open.value + |EXCEPT_MARK| > close.value then None
    else
      MarkPastPrefix(line, open.value);
      Some(ExceptFields(line, open.value, close.value))
  }

  /** "(except " cannot start inside the `MESSAGE_EXCEPT ` prefix, which
      holds no '('. */
  lemma {:induction false} MarkPastPrefix(line: string, a: nat)
    requires StartsWith(line, EXCEPT_PREFIX) && OccursAt(line, EXCEPT_MARK, a)
    ensures EXCEPT_CUT <= a
  {
    assert line[a..a + |EXCEPT_MARK|][0] == line[a] == '(';
    forall j | 0 <= j < |EXCEPT_PREFIX|
      ensures line[j] != '('
    {
      assert line[j] == line[..|EXCEPT_PREFIX|][j] == EXCEPT_PREFIX[j];
    }
  }

  /** The sender, excluded name and content of an all-except line whose
      markers were found at `a` and `b`. */
  function ExceptFields(line: string, a: nat, b: nat): (f: (string, string, string))
    requires EXCEPT_CUT <= a && a + |EXCEPT_MARK| <= b
    requires IndexOf(line, CLOSE_MARK) == Some(b)
    ensures b + |CLOSE_MARK| <= |line|
    ensures f == (Trim(line[EXCEPT_CUT..a]), line[a + |EXCEPT_MARK|..b], line[b + |CLOSE_MARK|..])
    ensures Trim(f.0) == f.0 && !Contains(f.1, CLOSE_MARK)
    ensures EndsWith(line, CLOSE_MARK + f.2)
  {
    var excluded := line[a + |EXCEPT_MARK|..b];
    NoOccurrenceInSlice(line, CLOSE_MARK, a + |EXCEPT_MARK|, b);
    EndsAfterMark(line, b);
    TrimIdempotent(line[EXCEPT_CUT..a]);
    (Trim(line[EXCEPT_CUT..a]), excluded, line[b + |CLOSE_MARK|..])
  }

  /** The text from a "):" on is the marker and everything after it. */
  lemma {:induction false} EndsAfterMark(line: string, b: nat)
    requires OccursAt(line, CLOSE_MARK, b)
    ensures EndsWith(line, CLOSE_MARK + line[b + |CLOSE_MARK|..])
  {
    var content := line[b + |CLOSE_MARK|..];
    assert line[|line| - |CLOSE_MARK + content|..] == line[b..] == CLOSE_MARK + content;
  }

  /** `processMessage`: dispatch on the line's prefix; any other line is
      ignored. A personal line is shown with exactly its 17-character prefix
      removed. */
  function ProcessMessage(line: string): (e: Incoming)
    ensures e.RosterText? <==> StartsWith(line, LIST_TEST)
    ensures e.RosterText? ==> line == LIST_TEST + e.list
    ensures e.Personal? ==> line == PERSONAL_PREFIX + e.text
    ensures e.Broadcast? ==> line == AllLine(e.sender, e.content) && !Contains(e.sender, SEP)
    ensures !StartsWith(line, LIST_TEST) && !StartsWith(line, ALL_PREFIX)
            && !StartsWith(line, PERSONAL_PREFIX) && !StartsWith(line, EXCEPT_PREFIX) ==>
              e.Ignored?
  {
    if StartsWith(line, LIST_TEST) then
      assert line == LIST_TEST + line[|LIST_TEST|..];
      RosterText(line[|LIST_TEST|..])
    else if StartsWith(line, ALL_PREFIX) then
      match DecodeAll(line)
      case Some((sender, content)) => Broadcast(sender, content)
      case None => Ignored
    else if StartsWith(line, PERSONAL_PREFIX) then
      assert line == PERSONAL_PREFIX + line[|PERSONAL_PREFIX|..];
      Personal(line[|PERSONAL_PREFIX|..])
    else if StartsWith(line, EXCEPT_PREFIX) then
      match DecodeExcept(line)
      case Some((sender, excluded, content)) => ExceptBroadcast(sender, excluded, content)
      case None => Ignored
    else Ignored
  }

  // ---------------------------------------------------------------------
  // Roster.
  // ---------------------------------------------------------------------

  /** `updateUserComboBox` as written: the text after the 11-character
      `CLIENT_LIST` test is split on ", ", pieces equal to the client's own
      name are dropped, and an empty text yields no entries. */
  function RosterEntries(me: string, list: string): (names: seq<string>)
    ensures me !in names
    ensures list == "" ==> names == []
    ensures forall x :: x in names ==> x in Split(list, ", ")
    ensures list != "" ==> forall x :: x in Split(list, ", ") && x != me ==> x in names
    ensures list != "" ==> Subsequence(names, Split(list, ", "))
  {
    if list == "" then [] else Without(Split(list, ", "), me)
  }

  /** The same parse on the text after the full 12-character `CLIENT_LIST `
      prefix, as the server writes it. */
  function RosterEntriesCorrected(me: string, list: string): (names: seq<string>)
    ensures me !in names
  {
    RosterEntries(me, if StartsWith(list, " ") then list[1..] else list)
  }

  // ---------------------------------------------------------------------
  // Registration.
  // ---------------------------------------------------------------------

  const TAKEN_ERROR := "This username is already taken"
  const REGISTRATION_ERROR := "Server error during registration"

  datatype Reply = Accepted | Refused(message: string)

  /** `initializeConnection`: only `USERNAME_OK` lets the client proceed;
      `USERNAME_TAKEN` raises the already-taken error and any other reply,
      or the end of the stream, a server error. */
  function CheckRegistrationReply(response: Option<string>): (r: Reply)
    ensures r.Accepted? <==> response == Some(USERNAME_OK)
    ensures r == Refused(TAKEN_ERROR) <==> response == Some(USERNAME_TAKEN)
    ensures r.Refused? && response != Some(USERNAME_TAKEN) ==> r.message == REGISTRATION_ERROR
  {
    if response == Some(USERNAME_TAKEN) then Refused(TAKEN_ERROR)
    else if response != Some(USERNAME_OK) then Refused(REGISTRATION_ERROR)
    else Accepted
  }
}

=== FILE: exchange.dfy ===
/** How the two ends fit together: every line the client sends is read by
    the server as the command the user chose, every line the server sends
    is read by the client as what was meant, and the login form reports the
    server's registration decision. */
module Exchange {
  import opened Options
  import opened Text
  import opened Protocol
  import opened ContentFilter
  import opened Registry
  import opened Router
  import opened Client
  import opened Login

  /** A leading space never creates a ": " that was not there. */
  lemma {:induction false} SpacedNoSep(u: string)
    requires !Contains(u, SEP)
    ensures !Contains(" " + u, SEP)
  {
    assert !Contains(" ", SEP);
    assert SEP[..1] == ":" && " "[0..] == " ";
    ConcatNoOccurrence(" ", u, SEP);
  }

  // ---------------------------------------------------------------------
  // Client to server.
  // ---------------------------------------------------------------------

  /** A message to everyone reaches the server as a broadcast of the
      trimmed text, and the filter inspects exactly that text. */
  lemma {:induction false} ToAllRoundTrip(text: string, selected: Option<string>, selection: seq<string>)
    requires Trim(text) != ""
    ensures Encode(All, text, selected, selection).Some?
    ensures var line := Encode(All, text, selected, selection).value;
            && ParseCommand(line) == ToAll(Trim(text))
            && ExtractActualMessage(line) == Trim(text)
  {
    assert Encode(All, text, selected, selection) == Some(ALL_PREFIX + Trim(text));
    ParseAll(Trim(text));
  }

  /** The server reads `MESSAGE_ALL t` as a broadcast of `t`. */
  lemma {:induction false} ParseAll(t: string)
    ensures ParseCommand(ALL_PREFIX + t) == ToAll(t)
    ensures ExtractActualMessage(ALL_PREFIX + t) == t
  {
    var line := ALL_PREFIX + t;
    assert line[0] == 'M';
    assert line[..|ALL_PREFIX|] == ALL_PREFIX;
    assert line[|ALL_PREFIX|..] == t;
  }

  /** The server reads `MESSAGE_TO u: t` as a direct message to `u`
      carrying `t`, when `u` holds no ": ". */
  lemma {:induction false} ParseDirect(u: string, t: string)
    requires !Contains(u, SEP)
    ensures ParseCommand(TO_PREFIX + u + SEP + t) == ToOne(u, t)
    ensures ExtractActualMessage(TO_PREFIX + u + SEP + t) == t
  {
    var line := TO_PREFIX + u + SEP + t;
    assert line[0] == 'M' && line[8] == 'T';
    assert !StartsWith(line, ALL_PREFIX) by { assert ALL_PREFIX[8] == 'A'; }
    assert line[..|TO_PREFIX|] == TO_PREFIX;
    assert line[|TO_PREFIX|..] == u + SEP + t;
    NoBorderByFirstChar(SEP);
    SplitOnceRoundTrip(u, SEP, t);
  }

  /** The server reads `MESSAGE_EXCEPT u: t` with the excluded name `" " + u`. */
  lemma {:induction false} ParseExcept(u: string, t: string)
    requires !Contains(u, SEP)
    ensures ParseCommand(EXCEPT_PREFIX + u + SEP + t) == AllExcept(" " + u, t)
    ensures ExtractActualMessage(EXCEPT_PREFIX + u + SEP + t) == t
  {
    var line := EXCEPT_PREFIX + u + SEP + t;
    assert line[0] == 'M' && line[8] == 'E';
    assert !StartsWith(line, ALL_PREFIX) by { assert ALL_PREFIX[8] == 'A'; }
    assert !StartsWith(line, TO_PREFIX) by { assert TO_PREFIX[8] == 'T'; }
    assert !StartsWith(line, MULTIPLE_PREFIX) by { assert MULTIPLE_PREFIX[8] == 'T'; }
    assert line[..|EXCEPT_PREFIX|] == EXCEPT_PREFIX;
    var rest := line[EXCEPT_CUT..];
    assert rest == " " + u + SEP + t;
    NoBorderByFirstChar(SEP);
    SpacedNoSep(u);
    SplitOnceRoundTrip(" " + u, SEP, t);
    assert SplitOnce(rest, SEP) == Some((" " + u, t));
  }

  /** A direct message reaches the server addressed to the trimmed selected
      user, provided that name holds no ": ". */
  lemma {:induction false} ToUserRoundTrip(text: string, user: string, selection: seq<string>)
    requires Trim(text) != "" && !Contains(Trim(user), SEP)
    ensures Encode(ToUser, text, Some(user), selection).Some?
    ensures var line := Encode(ToUser, text, Some(user), selection).value;
            && ParseCommand(line) == ToOne(Trim(user), Trim(text))
            && ExtractActualMessage(line) == Trim(text)
  {
    var t, u := Trim(text), Trim(user);
    assert Encode(ToUser, text, Some(user), selection) == Some(TO_PREFIX + u + SEP + t);
    ParseDirect(u, t);
  }

  /** An all-except message reaches the server with the excluded name one
      space longer than sent, because the server cuts its prefix one
      character short; trimming, as the server's lookup does, recovers the
      name. */
  lemma {:induction false} AllExceptRoundTrip(text: string, user: string, selection: seq<string>)
    requires Trim(text) != "" && !Contains(Trim(user), SEP)
    ensures Encode(AllExceptUser, text, Some(user), selection).Some?
    ensures var line := Encode(AllExceptUser, text, Some(user), selection).value;
            && ParseCommand(line) == AllExcept(" " + Trim(user), Trim(text))
            && ExtractActualMessage(line) == Trim(text)
            && Trim(ParseCommand(line).excluded) == Trim(user)
  {
    var t, u := Trim(text), Trim(user);
    assert Encode(AllExceptUser, text, Some(user), selection) == Some(EXCEPT_PREFIX + u + SEP + t);
    ParseExcept(u, t);
    TrimLeadingBlank(' ', u);
    TrimIdempotent(user);
  }

  /** The server reads `MESSAGE_TO_MULTIPLE l: t` with the list `" " + l`. */
  lemma {:induction false} ParseMultiple(list: string, t: string)
    requires !Contains(list, SEP)
    ensures ParseCommand(MULTIPLE_PREFIX + list + SEP + t) == ToMany(" " + list, t)
    ensures ExtractActualMessage(MULTIPLE_PREFIX + list + SEP + t) == t
  {
    var line := MULTIPLE_PREFIX + list + SEP + t;
    assert line[0] == 'M' && line[8] == 'T' && line[10] == '_';
    assert !StartsWith(line, ALL_PREFIX) by { assert ALL_PREFIX[8] == 'A'; }
    assert !StartsWith(line, TO_PREFIX) by { assert TO_PREFIX[10] == ' '; }
    assert line[..|MULTIPLE_PREFIX|] == MULTIPLE_PREFIX;
    var rest := line[MULTIPLE_CUT..];
    assert rest == " " + list + SEP + t;
    NoBorderByFirstChar(SEP);
    SpacedNoSep(list);
    SplitOnceRoundTrip(" " + list, SEP, t);
    assert SplitOnce(rest, SEP) == Some((" " + list, t));
  }

  /** The leading space the server leaves on the first piece does not
      change which name that piece counts for. */
  lemma {:induction false} CountNamedSpaced(first: string, rest: seq<string>, k: string)
    ensures CountNamed([" " + first] + rest, k) == CountNamed([first] + rest, k)
  {
    assert ([" " + first] + rest)[0] == [' '] + first;
    assert ([" " + first] + rest)[1..] == rest == ([first] + rest)[1..];
    TrimLeadingBlank(' ', first);
  }

  /** The server's comma split of `" " + Join(",", selection)` gives back
      the selection, the first name with the extra space. */
  lemma {:induction false} SplitSelection(selection: seq<string>)
    requires |selection| > 0 && selection[|selection| - 1] != ""
    requires forall i :: 0 <= i < |selection| ==> ',' !in selection[i]
    ensures Split(" " + Join(",", selection), ",") == [" " + selection[0]] + selection[1..]
  {
    var pieces := [" " + selection[0]] + selection[1..];
    JoinPrefixFirst(" ", ",", selection);
    forall i | 0 <= i < |pieces|
      ensures !Contains(pieces[i], ",")
    {
      ContainsChar(pieces[i], ',');
      if i == 0 {
        assert pieces[0] == [' '] + selection[0];
      } else {
        assert pieces[i] == selection[i];
      }
    }
    assert pieces[|pieces| - 1] != "" by {
      if |selection| == 1 {
        assert |pieces[0]| > 0;
      } else {
        assert pieces[|pieces| - 1] == selection[|selection| - 1];
      }
    }
    SplitJoinRoundTrip(",", pieces);
  }

  /** A multi-recipient message reaches the server as the selected names,
      one comma piece each, so every name is counted as often as it was
      selected, provided no name holds a comma or a colon and the last is
      not empty. */
  lemma {:induction false} ToMultipleRoundTrip(text: string, selection: seq<string>)
    requires Trim(text) != "" && |selection| > 0 && selection[|selection| - 1] != ""
    requires forall i :: 0 <= i < |selection| ==> ',' !in selection[i] && ':' !in selection[i]
    ensures Encode(ToMultipleUsers, text, None, selection).Some?
    ensures var line := Encode(ToMultipleUsers, text, None, selection).value;
            && ParseCommand(line) == ToMany(" " + Join(",", selection), Trim(text))
            && ExtractActualMessage(line) == Trim(text)
            && Split(ParseCommand(line).recipients, ",") == [" " + selection[0]] + selection[1..]
            && forall k :: CountNamed(Split(ParseCommand(line).recipients, ","), k)
                           == CountNamed(selection, k)
  {
    var t, list := Trim(text), Join(",", selection);
    assert Encode(ToMultipleUsers, text, None, selection) == Some(MULTIPLE_PREFIX + list + SEP + t);
    CharNotInJoin(':', ",", selection);
    NotContainsByChar(list, SEP, 0);
    ParseMultiple(list, t);
    SplitSelection(selection);
    SpacedSelectionCounts(selection);
  }

  /** The leading space the server leaves on the first name changes no count. */
  lemma {:induction false} SpacedSelectionCounts(selection: seq<string>)
    requires |selection| > 0
    ensures forall k :: CountNamed([" " + selection[0]] + selection[1..], k) == CountNamed(selection, k)
  {
    forall k
      ensures CountNamed([" " + selection[0]] + selection[1..], k) == CountNamed(selection, k)
    {
      CountNamedSpaced(selection[0], selection[1..], k);
      assert [selection[0]] + selection[1..] == selection;
    }
  }

  // ---------------------------------------------------------------------
  // Server to client.
  // ---------------------------------------------------------------------

  /** A broadcast line is shown as sent: sender and text recovered, when the
      sender's name holds no ": ". */
  lemma {:induction false} BroadcastDecoded(sender: string, body: string)
    requires !Contains(sender, SEP)
    ensures ProcessMessage(AllLine(sender, body)) == Broadcast(sender, body)
  {
    var line := AllLine(sender, body);
    assert line[0] == 'M';
    assert line[..|ALL_PREFIX|] == ALL_PREFIX;
    NotContainsByChar(ALL_PREFIX, SEP, 0);
    assert ALL_PREFIX[|ALL_PREFIX| - 1..] == " " && SEP[..1] == ":";
    ConcatNoOccurrence(ALL_PREFIX, sender, SEP);
    NoBorderByFirstChar(SEP);
    FirstOccurrence(ALL_PREFIX + sender, SEP, body);
    var i := |ALL_PREFIX + sender|;
    assert line[|ALL_PREFIX|..i] == sender;
    assert line[i + 2..] == body;
  }

  /** A sender whose name holds ": " is mis-shown: the client cuts the
      sender at the first ": ", which lies inside the name, so the
      broadcast is shown under another sender (and, for "a: b" sending
      "hi", as sender "a" saying "b: hi"). */
  lemma {:induction false} BroadcastColonSender(sender: string, body: string)
    requires Contains(sender, SEP)
    ensures ProcessMessage(AllLine(sender, body)).Broadcast?
    ensures ProcessMessage(AllLine(sender, body)).sender != sender
  {
    var line := AllLine(sender, body);
    var k :| 0 <= k <= |sender| - |SEP| && OccursAt(sender, SEP, k);
    assert line[|ALL_PREFIX| + k..|ALL_PREFIX| + k + |SEP|] == sender[k..k + |SEP|];
    assert OccursAt(line, SEP, |ALL_PREFIX| + k);
    assert line[..|ALL_PREFIX|] == ALL_PREFIX;
    assert line[0] != LIST_TEST[0];
  }

  /** The recipient of a direct message is shown who sent it and what. */
  lemma {:induction false} PersonalFromDecoded(sender: string, body: string)
    ensures ProcessMessage(PersonalFromLine(sender, body)) == Personal("from " + sender + SEP + body)
  {
    assert PersonalFromLine(sender, body) == PERSONAL_PREFIX + ("from " + sender + SEP + body);
    PersonalDecoded("from " + sender + SEP + body);
  }

  /** The sender of a direct message is shown `To <recipient>: <text>`. */
  lemma {:induction false} PersonalToDecoded(recipient: string, body: string)
    ensures ProcessMessage(PersonalToLine(recipient, body)) == Personal("To " + recipient + SEP + body)
  {
    assert PersonalToLine(recipient, body) == PERSONAL_PREFIX + ("To " + recipient + SEP + body);
    PersonalDecoded("To " + recipient + SEP + body);
  }

  /** Every personal line is shown with exactly its prefix removed. */
  lemma {:induction false} PersonalDecoded(text: string)
    ensures ProcessMessage(PERSONAL_PREFIX + text) == Personal(text)
  {
    var line := PERSONAL_PREFIX + text;
    assert line[0] == 'M' && line[8] == 'P';
    assert !StartsWith(line, ALL_PREFIX) by { assert ALL_PREFIX[8] == 'A'; }
    assert line[..|PERSONAL_PREFIX|] == PERSONAL_PREFIX;
    assert line[|PERSONAL_PREFIX|..] == text;
  }

  /** Where the client finds its two markers in an all-except line. */
  lemma {:induction false} ExceptMarks(line: string, sender: string, excluded: string, body: string, a: nat, b: nat)
    requires line == ExceptLine(sender, excluded, body)
    requires a == |EXCEPT_PREFIX| + |sender| + 1 && b == a + |EXCEPT_MARK| + |excluded|
    requires '(' !in sender && ')' !in sender && ')' !in excluded
    ensures IndexOf(line, EXCEPT_MARK) == Some(a)
    ensures IndexOf(line, CLOSE_MARK) == Some(b)
  {
    var p := |EXCEPT_PREFIX|;
    assert line[a..a + |EXCEPT_MARK|] == EXCEPT_MARK;
    assert line[b..b + |CLOSE_MARK|] == CLOSE_MARK;
    assert forall i :: 0 <= i < |EXCEPT_MARK| ==> EXCEPT_MARK[i] != ')';
    assert forall i :: 0 <= i < p ==> EXCEPT_PREFIX[i] != ')' && EXCEPT_PREFIX[i] != '(';
    forall j | 0 <= j < b
      ensures j < a ==> line[j] != '('
      ensures line[j] != ')'
    {
      if j < p {
        assert line[j] == EXCEPT_PREFIX[j];
      } else if j < p + |sender| {
        assert line[j] == sender[j - p];
      } else if j < a {
        assert line[j] == ' ';
      } else if j < a + |EXCEPT_MARK| {
        assert line[j] == EXCEPT_MARK[j - a];
      } else {
        assert line[j] == excluded[j - a - |EXCEPT_MARK|];
      }
    }
    FirstOccurrenceAt(line, EXCEPT_MARK, a);
    FirstOccurrenceAt(line, CLOSE_MARK, b);
  }

  /** The client's reading of an all-except line: sender and excluded name
      recovered; the content keeps the space that follows "):" on the wire.
      The names must not hold the parentheses the client searches for. */
  lemma {:induction false} ExceptLineDecoded(sender: string, excluded: string, body: string)
    requires |sender| > 0 && !IsBlank(sender[0]) && !IsBlank(sender[|sender| - 1])
    requires '(' !in sender && ')' !in sender && ')' !in excluded
    ensures StartsWith(ExceptLine(sender, excluded, body), EXCEPT_PREFIX)
    ensures DecodeExcept(ExceptLine(sender, excluded, body)) == Some((sender, excluded, " " + body))
  {
    var line := ExceptLine(sender, excluded, body);
    var a := |EXCEPT_PREFIX| + |sender| + 1;
    var b := a + |EXCEPT_MARK| + |excluded|;
    ExceptLineShape(line, sender, excluded, body, a, b);
    ExceptMarks(line, sender, excluded, body, a, b);
    TrimPadded(sender);
    DecodeExceptAt(line, a, b);
    ExceptFieldsAt(line, a, b, sender, excluded, " " + body);
  }

  /** The client's except reading, once both markers are located. */
  lemma {:induction false} DecodeExceptAt(line: string, a: nat, b: nat)
    requires StartsWith(line, EXCEPT_PREFIX)
    requires IndexOf(line, EXCEPT_MARK) == Some(a) && IndexOf(line, CLOSE_MARK) == Some(b)
    requires EXCEPT_CUT <= a && a + |EXCEPT_MARK| <= b
    ensures DecodeExcept(line) == Some(ExceptFields(line, a, b))
  {
  }

  /** The fields cut at the located markers. */
  lemma {:induction false} ExceptFieldsAt(line: string, a: nat, b: nat, sender: string, excluded: string, content: string)
    requires IndexOf(line, CLOSE_MARK) == Some(b)
    requires EXCEPT_CUT <= a && a + |EXCEPT_MARK| <= b
    requires Trim(line[EXCEPT_CUT..a]) == sender && line[a + |EXCEPT_MARK|..b] == excluded
    requires line[b + 2..] == content
    ensures ExceptFields(line, a, b) == (sender, excluded, content)
  {
  }

  /** The slices of an all-except line the client cuts out. */
  lemma {:induction false} ExceptLineShape(line: string, sender: string, excluded: string, body: string, a: nat, b: nat)
    requires line == ExceptLine(sender, excluded, body)
    requires a == |EXCEPT_PREFIX| + |sender| + 1 && b == a + |EXCEPT_MARK| + |excluded|
    ensures StartsWith(line, EXCEPT_PREFIX)
    ensures b + 2 <= |line|
    ensures line[EXCEPT_CUT..a] == " " + sender + " "
    ensures line[a + |EXCEPT_MARK|..b] == excluded
    ensures line[b + 2..] == " " + body
  {
    var head := EXCEPT_PREFIX + sender + " (except ";
    var tail := ")" + SEP + body;
    assert line == head + excluded + tail;
    ExceptHead(head, sender);
    assert line[..a] == head[..a];
    assert line[a + |EXCEPT_MARK|..b] == excluded;
    assert line[b..] == tail;
    assert tail[2..] == " " + body;
  }

  /** The head of an all-except line, up to the excluded name. */
  lemma {:induction false} ExceptHead(head: string, sender: string)
    requires head == EXCEPT_PREFIX + sender + " (except "
    ensures |head| == |EXCEPT_PREFIX| + |sender| + 1 + |EXCEPT_MARK|
    ensures head[..|EXCEPT_PREFIX|] == EXCEPT_PREFIX
    ensures head[EXCEPT_CUT..|EXCEPT_PREFIX| + |sender| + 1] == " " + sender + " "
  {
    assert EXCEPT_PREFIX == EXCEPT_PREFIX[..EXCEPT_CUT] + " ";
    assert head == EXCEPT_PREFIX[..EXCEPT_CUT] + (" " + sender + " ") + EXCEPT_MARK;
  }

  /** An all-except line is shown with its sender and excluded name, and
      the content with one extra leading space. */
  lemma {:induction false} ExceptDecoded(sender: string, excluded: string, body: string)
    requires |sender| > 0 && !IsBlank(sender[0]) && !IsBlank(sender[|sender| - 1])
    requires '(' !in sender && ')' !in sender && ')' !in excluded
    ensures ProcessMessage(ExceptLine(sender, excluded, body))
            == ExceptBroadcast(sender, excluded, " " + body)
  {
    var line := ExceptLine(sender, excluded, body);
    assert line[0] == 'M' && line[8] == 'E';
    assert !StartsWith(line, ALL_PREFIX) by { assert ALL_PREFIX[8] == 'A'; }
    assert !StartsWith(line, PERSONAL_PREFIX) by { assert PERSONAL_PREFIX[8] == 'P'; }
    ExceptLineDecoded(sender, excluded, body);
  }

  // ---------------------------------------------------------------------
  // The roster.
  // ---------------------------------------------------------------------

  /** The client cuts the roster line after `CLIENT_LIST`, one character
      before the names start, so the text it parses begins with a space. */
  lemma {:induction false} RosterTextOf(names: seq<string>)
    ensures ProcessMessage(RosterLine(names)) == RosterText(" " + Join(", ", names))
  {
    var line := RosterLine(names);
    assert line[..|LIST_TEST|] == LIST_TEST;
    assert line[|LIST_TEST|..] == " " + Join(", ", names);
  }

  /** As written, a client alone on the server is shown one blank entry
      instead of an empty roster. */
  lemma {:induction false} RosterPhantomEntry(me: string)
    requires me != " "
    ensures ProcessMessage(RosterLine([])) == RosterText(" ")
    ensures RosterEntries(me, " ") == [" "]
  {
    RosterTextOf([]);
    NotContainsByChar(" ", ", ", 0);
  }

  /** As written, the first other name is shown with a leading space, so
      the entries never equal the names the server sent. */
  lemma {:induction false} RosterAsWritten(me: string, others: seq<string>)
    requires |others| > 0
    requires forall i :: 0 <= i < |others| ==> others[i] != "" && !Contains(others[i], ", ")
    requires me !in others && me != " " + others[0]
    ensures ProcessMessage(RosterLine(others)) == RosterText(" " + Join(", ", others))
    ensures RosterEntries(me, " " + Join(", ", others)) == [" " + others[0]] + others[1..]
    ensures RosterEntries(me, " " + Join(", ", others)) != others
  {
    RosterTextOf(others);
    var pieces := [" " + others[0]] + others[1..];
    JoinPrefixFirst(" ", ", ", others);
    forall i | 0 <= i < |pieces|
      ensures !Contains(pieces[i], ", ")
    {
      if i == 0 {
        assert !Contains(" ", ", ") && " "[0..] == " ";
        assert ", "[..1] == "," && !EndsWith(" ", ",") by {
          assert " "[|" "| - 1..][0] == ' ' != ',';
        }
        ConcatNoOccurrence(" ", others[0], ", ");
      } else {
        assert pieces[i] == others[i];
      }
    }
    assert pieces[|pieces| - 1] != "" by {
      if |others| == 1 {
        assert |pieces[0]| > 0;
      } else {
        assert pieces[|pieces| - 1] == others[|others| - 1];
      }
    }
    NoBorderByFirstChar(", ");
    SplitJoinRoundTrip(", ", pieces);
    assert me !in pieces;
    assert |pieces[0]| != |others[0]|;
  }

  /** Corrected: parsing the text after the whole `CLIENT_LIST ` prefix
      gives back exactly the names the server listed, less the client's
      own, and nothing for an empty roster. */
  lemma {:induction false} RosterCorrectedRoundTrip(me: string, others: seq<string>)
    requires forall i :: 0 <= i < |others| ==> others[i] != "" && !Contains(others[i], ", ")
    ensures ProcessMessage(RosterLine(others)) == RosterText(" " + Join(", ", others))
    ensures RosterEntriesCorrected(me, " " + Join(", ", others)) == Without(others, me)
  {
    RosterTextOf(others);
    var list := Join(", ", others);
    assert (" " + list)[1..] == list;
    if |others| > 0 {
      assert |list| >= |others[0]| > 0;
      NoBorderByFirstChar(", ");
      SplitJoinRoundTrip(", ", others);
    }
  }

  // ---------------------------------------------------------------------
  // End to end: one message typed, dispatched and shown.
  // ---------------------------------------------------------------------

  /** The server routes an unfiltered broadcast line to everyone. */
  lemma {:induction false} RoutedAll(r: Registry, banned: seq<string>, sender: string, line: string, body: string)
    requires Valid(r) && sender in r.outbox
    requires ParseCommand(line) == ToAll(body) && !ContainsBannedPhrase(banned, ExtractActualMessage(line))
    ensures Dispatch(r, banned, sender, line) == BroadcastAll(r, sender, body)
  {
    assert !IsControl(line);
  }

  /** The server routes an unfiltered direct line to its recipient. */
  lemma {:induction false} RoutedOne(r: Registry, banned: seq<string>, sender: string, line: string, to: string, body: string)
    requires Valid(r) && sender in r.outbox
    requires ParseCommand(line) == ToOne(to, body) && !ContainsBannedPhrase(banned, ExtractActualMessage(line))
    ensures Dispatch(r, banned, sender, line) == SendDirect(r, sender, to, body)
  {
    assert !IsControl(line);
  }

  /** The server routes an unfiltered all-except line to everyone else. */
  lemma {:induction false} RoutedExcept(r: Registry, banned: seq<string>, sender: string, line: string, x: string, body: string)
    requires Valid(r) && sender in r.outbox
    requires ParseCommand(line) == AllExcept(x, body) && !ContainsBannedPhrase(banned, ExtractActualMessage(line))
    ensures Dispatch(r, banned, sender, line) == BroadcastExcept(r, sender, x, body)
  {
    assert !IsControl(line);
  }

  /** The server answers a blocked line with the banned-content notice. */
  lemma {:induction false} RoutedBlocked(r: Registry, banned: seq<string>, sender: string, line: string, body: string)
    requires Valid(r) && sender in r.outbox
    requires ParseCommand(line) == ToAll(body) && ContainsBannedPhrase(banned, ExtractActualMessage(line))
    ensures Dispatch(r, banned, sender, line).outbox == r.outbox[sender := r.outbox[sender] + [BANNED_NOTICE]]
  {
    assert !IsControl(line);
  }

  /** Any line the server reads as an unfiltered broadcast reaches every
      client and is shown as that broadcast. */
  lemma {:induction false} BroadcastDelivered(r: Registry, banned: seq<string>, sender: string, line: string, body: string)
    requires Valid(r) && sender in r.outbox && !Contains(sender, SEP)
    requires ParseCommand(line) == ToAll(body) && !ContainsBannedPhrase(banned, ExtractActualMessage(line))
    ensures var r' := Dispatch(r, banned, sender, line);
            forall k :: k in r.outbox ==>
              && |r'.outbox[k]| == |r.outbox[k]| + 1
              && r'.outbox[k][..|r.outbox[k]|] == r.outbox[k]
              && ProcessMessage(r'.outbox[k][|r.outbox[k]|]) == Broadcast(sender, body)
  {
    RoutedAll(r, banned, sender, line, body);
    BroadcastDecoded(sender, body);
  }

  /** A message to everyone that passes the filter reaches every client,
      the sender included, as one line shown with the sender's name and the
      trimmed text; a blocked one only earns the sender the banned-content
      notice. */
  lemma {:induction false} BroadcastEndToEnd(r: Registry, banned: seq<string>, sender: string, text: string, line: string)
    requires Valid(r) && sender in r.outbox && !Contains(sender, SEP)
    requires Encode(All, text, None, []) == Some(line)
    ensures ParseCommand(line) == ToAll(Trim(text)) && ExtractActualMessage(line) == Trim(text)
    ensures var r' := Dispatch(r, banned, sender, line);
            !ContainsBannedPhrase(banned, Trim(text)) ==>
              forall k :: k in r.outbox ==>
                && |r'.outbox[k]| == |r.outbox[k]| + 1
                && r'.outbox[k][..|r.outbox[k]|] == r.outbox[k]
                && ProcessMessage(r'.outbox[k][|r.outbox[k]|]) == Broadcast(sender, Trim(text))
    ensures ContainsBannedPhrase(banned, Trim(text)) ==>
              Dispatch(r, banned, sender, line).outbox == r.outbox[sender := r.outbox[sender] + [BANNED_NOTICE]]
  {
    ToAllRoundTrip(text, None, []);
    var t := Trim(text);
    if ContainsBannedPhrase(banned, t) {
      RoutedBlocked(r, banned, sender, line, t);
    } else {
      BroadcastDelivered(r, banned, sender, line, t);
    }
  }

  /** Any line the server reads as an unfiltered direct message to the
      trimmed `user` reaches the first client matching `user` and confirms
      to the sender, or tells the sender the trimmed name was not found. */
  lemma {:induction false} DirectDelivered(r: Registry, banned: seq<string>, sender: string, line: string,
                                           user: string, body: string)
    requires Valid(r) && sender in r.outbox
    requires ParseCommand(line) == ToOne(Trim(user), body)
    requires !ContainsBannedPhrase(banned, ExtractActualMessage(line))
    ensures var r' := Dispatch(r, banned, sender, line);
            Resolve(r, user).Some? ==>
              forall k :: k in r.outbox ==>
                r'.outbox[k] == r.outbox[k]
                                + (if k == Resolve(r, user).value then [PersonalFromLine(sender, body)] else [])
                                + (if k == sender then [PersonalToLine(Resolve(r, user).value, body)] else [])
    ensures Resolve(r, user).None? ==>
              Dispatch(r, banned, sender, line).outbox
              == r.outbox[sender := r.outbox[sender] + [NotFoundNotice(Trim(user))]]
  {
    RoutedOne(r, banned, sender, line, Trim(user), body);
    TrimIdempotent(user);
    assert Resolve(r, Trim(user)) == Resolve(r, user);
  }

  /** A direct message that passes the filter reaches the first registered
      client whose name matches the selected one ignoring case, and the
      sender sees a confirmation; with no match the sender is told the name
      it selected, trimmed, was not found. */
  lemma {:induction false} DirectEndToEnd(r: Registry, banned: seq<string>, sender: string, text: string,
                                          user: string, line: string)
    requires Valid(r) && sender in r.outbox && !Contains(Trim(user), SEP)
    requires Encode(ToUser, text, Some(user), []) == Some(line)
    requires !ContainsBannedPhrase(banned, Trim(text))
    ensures ParseCommand(line) == ToOne(Trim(user), Trim(text)) && ExtractActualMessage(line) == Trim(text)
    ensures var r' := Dispatch(r, banned, sender, line);
            Resolve(r, user).Some? ==>
              var to := Resolve(r, user).value;
              forall k :: k in r.outbox ==>
                r'.outbox[k] == r.outbox[k]
                                + (if k == to then [PersonalFromLine(sender, Trim(text))] else [])
                                + (if k == sender then [PersonalToLine(to, Trim(text))] else [])
    ensures Resolve(r, user).None? ==>
              Dispatch(r, banned, sender, line).outbox
              == r.outbox[sender := r.outbox[sender] + [NotFoundNotice(Trim(user))]]
    ensures ProcessMessage(PersonalFromLine(sender, Trim(text))) == Personal("from " + sender + SEP + Trim(text))
    ensures Resolve(r, user).Some? ==>
              var to := Resolve(r, user).value;
              ProcessMessage(PersonalToLine(to, Trim(text))) == Personal("To " + to + SEP + Trim(text))
  {
    ToUserRoundTrip(text, user, []);
    DirectDelivered(r, banned, sender, line, user, Trim(text));
    PersonalFromDecoded(sender, Trim(text));
    if Resolve(r, user).Some? {
      PersonalToDecoded(Resolve(r, user).value, Trim(text));
    }
  }

  /** A message to all but one user that passes the filter reaches every
      registered client except the first match of the selected name, each
      showing the sender, the excluded client's registered name and the
      text after one extra space; with no match the sender's notice quotes
      the name with the space the server's cut leaves on it. */
  lemma {:induction false} ExceptEndToEnd(r: Registry, banned: seq<string>, sender: string, text: string,
                                          user: string, line: string)
    requires Valid(r) && sender in r.outbox && !Contains(Trim(user), SEP)
    requires Encode(AllExceptUser, text, Some(user), []) == Some(line)
    requires !ContainsBannedPhrase(banned, Trim(text))
    requires |sender| > 0 && !IsBlank(sender[0]) && !IsBlank(sender[|sender| - 1])
    requires '(' !in sender && ')' !in sender
    requires forall k :: k in r.outbox ==> ')' !in k
    ensures ParseCommand(line) == AllExcept(" " + Trim(user), Trim(text))
            && ExtractActualMessage(line) == Trim(text)
    ensures var r' := Dispatch(r, banned, sender, line);
            Resolve(r, user).Some? ==>
              var x := Resolve(r, user).value;
              && r'.outbox[x] == r.outbox[x]
              && forall k :: k in r.outbox && k != x ==>
                   && |r'.outbox[k]| == |r.outbox[k]| + 1
                   && r'.outbox[k][..|r.outbox[k]|] == r.outbox[k]
                   && ProcessMessage(r'.outbox[k][|r.outbox[k]|])
                      == ExceptBroadcast(sender, x, " " + Trim(text))
    ensures Resolve(r, user).None? ==>
              Dispatch(r, banned, sender, line).outbox
              == r.outbox[sender := r.outbox[sender] + [NotFoundNotice(" " + Trim(user))]]
  {
    AllExceptRoundTrip(text, user, []);
    ExceptDelivered(r, banned, sender, line, user, Trim(text));
  }

  /** Any line the server reads as an unfiltered all-except message naming
      the trimmed `user` after a space reaches every client but the first
      match of `user`, or tells the sender the spaced name was not found. */
  lemma {:induction false} ExceptDelivered(r: Registry, banned: seq<string>, sender: string, line: string,
                                           user: string, body: string)
    requires Valid(r) && sender in r.outbox
    requires ParseCommand(line) == AllExcept(" " + Trim(user), body)
    requires !ContainsBannedPhrase(banned, ExtractActualMessage(line))
    requires |sender| > 0 && !IsBlank(sender[0]) && !IsBlank(sender[|sender| - 1])
    requires '(' !in sender && ')' !in sender
    requires forall k :: k in r.outbox ==> ')' !in k
    ensures var r' := Dispatch(r, banned, sender, line);
            Resolve(r, user).Some? ==>
              var x := Resolve(r, user).value;
              && r'.outbox[x] == r.outbox[x]
              && forall k :: k in r.outbox && k != x ==>
                   && |r'.outbox[k]| == |r.outbox[k]| + 1
                   && r'.outbox[k][..|r.outbox[k]|] == r.outbox[k]
                   && ProcessMessage(r'.outbox[k][|r.outbox[k]|]) == ExceptBroadcast(sender, x, " " + body)
    ensures Resolve(r, user).None? ==>
              Dispatch(r, banned, sender, line).outbox
              == r.outbox[sender := r.outbox[sender] + [NotFoundNotice(" " + Trim(user))]]
  {
    RoutedExcept(r, banned, sender, line, " " + Trim(user), body);
    SpacedNameResolves(r, user);
    if Resolve(r, user).Some? {
      ExceptSpreads(r, sender, " " + Trim(user), body);
    }
  }

  /** The space the server keeps before an excluded name does not change
      which client it resolves to. */
  lemma {:induction false} SpacedNameResolves(r: Registry, user: string)
    requires Valid(r)
    ensures Resolve(r, " " + Trim(user)) == Resolve(r, user)
  {
    var t := Trim(user);
    TrimLeadingBlank(' ', t);
    assert [' '] + t == " " + t;
    TrimIdempotent(user);
    SameTrimSameResolve(r, " " + t, user);
  }


  /** When the excluded name is found, every other client is sent the
      all-except line, which it shows as that broadcast. */
  lemma {:induction false} ExceptSpreads(r: Registry, sender: string, excluded: string, body: string)
    requires Valid(r) && sender in r.outbox && Resolve(r, excluded).Some?
    requires |sender| > 0 && !IsBlank(sender[0]) && !IsBlank(sender[|sender| - 1])
    requires '(' !in sender && ')' !in sender
    requires forall k :: k in r.outbox ==> ')' !in k
    ensures var r', x := BroadcastExcept(r, sender, excluded, body), Resolve(r, excluded).value;
            && r'.outbox[x] == r.outbox[x]
            && forall k :: k in r.outbox && k != x ==>
                 && |r'.outbox[k]| == |r.outbox[k]| + 1
                 && r'.outbox[k][..|r.outbox[k]|] == r.outbox[k]
                 && ProcessMessage(r'.outbox[k][|r.outbox[k]|]) == ExceptBroadcast(sender, x, " " + body)
  {
    var r', x := BroadcastExcept(r, sender, excluded, body), Resolve(r, excluded).value;
    ExceptDecoded(sender, x, body);
    ExceptReachesOthers(r, r', x, ExceptLine(sender, x, body));
  }

  /** A line given to every client but `x` is each of their newest lines. */
  lemma {:induction false} ExceptReachesOthers(r: Registry, r': Registry, x: string, line: string)
    requires r'.outbox.Keys == r.outbox.Keys
    requires forall k :: k in r.outbox && k != x ==> r'.outbox[k] == r.outbox[k] + [line]
    ensures forall k :: k in r.outbox && k != x ==>
              && |r'.outbox[k]| == |r.outbox[k]| + 1
              && r'.outbox[k][..|r.outbox[k]|] == r.outbox[k]
              && r'.outbox[k][|r.outbox[k]|] == line
  {
    forall k | k in r.outbox && k != x
      ensures r'.outbox[k][..|r.outbox[k]|] == r.outbox[k]
    {
      assert r'.outbox[k] == r.outbox[k] + [line];
    }
  }

  /** A message to several users that passes the filter gives every
      registered client one copy per time the selection names it exactly,
      and the sender one confirmation. */
  lemma {:induction false} MultipleEndToEnd(r: Registry, banned: seq<string>, sender: string, text: string,
                                            selection: seq<string>, line: string)
    requires Valid(r) && sender in r.outbox
    requires |selection| > 0 && selection[|selection| - 1] != ""
    requires forall i :: 0 <= i < |selection| ==> ',' !in selection[i] && ':' !in selection[i]
    requires Encode(ToMultipleUsers, text, None, selection) == Some(line)
    requires !ContainsBannedPhrase(banned, Trim(text))
    ensures ParseCommand(line) == ToMany(" " + Join(",", selection), Trim(text))
            && ExtractActualMessage(line) == Trim(text)
    ensures var r' := Dispatch(r, banned, sender, line);
            forall k :: k in r.outbox ==>
              r'.outbox[k] == r.outbox[k]
                              + Repeat(PersonalFromLine(sender, Trim(text)), CountNamed(selection, k))
                              + (if k == sender
                                 then [MultipleReply(Hits(r, [" " + selection[0]] + selection[1..]), Trim(text))]
                                 else [])
    ensures ProcessMessage(PersonalFromLine(sender, Trim(text))) == Personal("from " + sender + SEP + Trim(text))
  {
    ToMultipleRoundTrip(text, selection);
    PersonalFromDecoded(sender, Trim(text));
  }

  // ---------------------------------------------------------------------
  // End to end: logging in.
  // ---------------------------------------------------------------------

  /** With a valid form and a reachable server, the login window opens the
      chat exactly when the server registers the trimmed name, and shows the
      already-taken notice exactly when the server refuses it. */
  lemma {:induction false} LoginEndToEnd(r: Registry, ipField: string, portField: string, nameField: string,
                                         resolves: string -> bool, reachable: (string, int) -> bool)
    requires Valid(r)
    requires Validate(ipField, portField, nameField, resolves).Proceed?
    requires reachable(Trim(ipField), ParseInt(Trim(portField)).value)
    ensures var res := Connect(ipField, portField, nameField, resolves, reachable,
                               Some(Register(r, Trim(nameField)).reply));
            && (res == LoggedIn(Trim(nameField)) <==> Trim(nameField) !in r.outbox)
            && (res == Shown(TAKEN_NOTICE) <==> Trim(nameField) in r.outbox)
  {
    var g := Register(r, Trim(nameField));
    assert USERNAME_OK != USERNAME_TAKEN by { assert |USERNAME_OK| != |USERNAME_TAKEN|; }
    assert g.reply == USERNAME_OK || g.reply == USERNAME_TAKEN;
  }
}

=== FILE: filter.dfy ===
/** The server's banned-phrase filter. A phrase counts only as a whole
    space-delimited token of the lower-cased message: the whole message, a
    prefix followed by a space, a suffix preceded by a space, or an interior
    occurrence between two spaces. The phrases come from the configuration
    file, already trimmed and lower-cased by the loader. */
module ContentFilter {
  import opened Text

  /** The four tests the server applies to one phrase, on the lower-cased
      message `low`. */
  predicate MatchesPhrase(low: string, p: string) {
    || Contains(low, " " + p + " ")
    || StartsWith(low, p + " ")
    || EndsWith(low, " " + p)
    || low == p
  }

  /** Reference definition: `p` occurs at `i` with a space or the end of the
      text on each side. */
  predicate TokenAt(low: string, p: string, i: int) {
    && OccursAt(low, p, i)
    && (i == 0 || low[i - 1] == ' ')
    && (i + |p| == |low| || low[i + |p|] == ' ')
  }

  predicate HasToken(low: string, p: string) {
    exists i :: 0 <= i <= |low| - |p| && TokenAt(low, p, i)
  }

  /** `containsBannedPhrase(m)`: holds exactly when some banned phrase is a
      whole token of the lower-cased message. */
  function ContainsBannedPhrase(banned: seq<string>, m: string): (b: bool)
    ensures b <==> exists k :: 0 <= k < |banned| && HasToken(Lower(m), banned[k])
  {
    var low := Lower(m);
    forall k | 0 <= k < |banned|
      ensures MatchesPhrase(low, banned[k]) <==> HasToken(low, banned[k])
    {
      MatchesIffToken(low, banned[k]);
    }
    exists k :: 0 <= k < |banned| && MatchesPhrase(low, banned[k])
  }

  /** The four string tests say the same as the whole-token definition. */
  lemma {:induction false} MatchesIffToken(low: string, p: string)
    ensures MatchesPhrase(low, p) <==> HasToken(low, p)
  {
    if Contains(low, " " + p + " ") {
      var j :| 0 <= j <= |low| - |p| - 2 && OccursAt(low, " " + p + " ", j);
      InteriorIsToken(low, p, j);
    } else if StartsWith(low, p + " ") {
      PrefixIsToken(low, p);
    } else if EndsWith(low, " " + p) {
      SuffixIsToken(low, p);
    } else if low == p {
      assert low[0..|p|] == p;
      assert TokenAt(low, p, 0);
    }
    if HasToken(low, p) {
      var i :| 0 <= i <= |low| - |p| && TokenAt(low, p, i);
      TokenMatches(low, p, i);
    }
  }

  lemma {:induction false} InteriorIsToken(low: string, p: string, j: int)
    requires OccursAt(low, " " + p + " ", j)
    ensures TokenAt(low, p, j + 1)
  {
    var w := low[j..j + |p| + 2];
    assert w == " " + p + " ";
    assert w[1..|p| + 1] == p;
    var a, b := low[j + 1..j + 1 + |p|], w[1..|p| + 1];
    forall m | 0 <= m < |p|
      ensures a[m] == b[m]
    {
      assert w[1 + m] == low[j + 1 + m];
    }
    assert a == b;
    assert low[j] == w[0];
    assert low[j + 1 + |p|] == w[|p| + 1];
  }

  lemma {:induction false} PrefixIsToken(low: string, p: string)
    requires StartsWith(low, p + " ")
    ensures TokenAt(low, p, 0)
  {
    assert low[..|p| + 1] == p + " ";
    assert low[0..|p|] == low[..|p| + 1][..|p|] == p;
    assert low[|p|] == low[..|p| + 1][|p|] == ' ';
  }

  lemma {:induction false} SuffixIsToken(low: string, p: string)
    requires EndsWith(low, " " + p)
    ensures TokenAt(low, p, |low| - |p|)
  {
    var i := |low| - |p|;
    assert low[i - 1..] == " " + p;
    assert low[i..i + |p|] == low[i - 1..][1..] == p;
    assert low[i - 1] == low[i - 1..][0] == ' ';
  }

  lemma {:induction false} TokenMatches(low: string, p: string, i: int)
    requires TokenAt(low, p, i)
    ensures MatchesPhrase(low, p)
  {
    if i == 0 && i + |p| == |low| {
      assert low == low[0..|p|];
    } else if i == 0 {
      assert low[..|p| + 1] == low[0..|p|] + [low[|p|]] == p + " ";
    } else if i + |p| == |low| {
      assert low[i - 1..] == [low[i - 1]] + low[i..i + |p|] == " " + p;
    } else {
      assert low[i - 1..i + |p| + 1] == [low[i - 1]] + low[i..i + |p|] + [low[i + |p|]];
      assert OccursAt(low, " " + p + " ", i - 1);
    }
  }

  // ---------------------------------------------------------------------
  // The boundary behaviour on the phrase "spam".
  // ---------------------------------------------------------------------

  /** With the phrase "spam", a message holding it as a whole token is
      blocked: alone, or followed by more words. */
  lemma SpamBlockedAsToken()
    ensures ContainsBannedPhrase(["spam"], "spam")
    ensures ContainsBannedPhrase(["spam"], "spam now")
  {
    BlockedAt("spam", "spam", 0);
    BlockedAt("spam now", "spam now", 0);
  }

  /** The phrase is found after other words too. */
  lemma SpamBlockedMidSentence()
    ensures ContainsBannedPhrase(["spam"], "buy spam")
    ensures ContainsBannedPhrase(["spam"], "buy spam now")
  {
    BlockedAt("buy spam", "buy spam", 4);
    BlockedAt("buy spam now", "buy spam now", 4);
  }

  /** The case of the message's letters does not matter. */
  lemma SpamBlockedAnyCase()
    ensures ContainsBannedPhrase(["spam"], "Buy SPAM now")
  {
    BlockedAt("Buy SPAM now", "buy spam now", 4);
  }

  lemma {:induction false} BlockedAt(m: string, low: string, i: int)
    requires |low| == |m| && forall k :: 0 <= k < |m| ==> LowerChar(m[k]) == low[k]
    requires 0 <= i <= |low| - 4 && TokenAt(low, "spam", i)
    ensures ContainsBannedPhrase(["spam"], m)
  {
    assert Lower(m) == low;
    assert ["spam"][0] == "spam";
    assert HasToken(Lower(m), ["spam"][0]);
  }

  /** A phrase inside a longer word is not a token. */
  lemma SpamInsideWordPasses()
    ensures !ContainsBannedPhrase(["spam"], "spammer")
  {
    var low := Lower("spammer");
    assert low == "spammer";
    forall i | 0 <= i <= |low| - 4
      ensures !TokenAt(low, "spam", i)
    {
      if i == 0 {
        assert low[4] == 'm';
      } else {
        assert low[i..i + 4][0] == low[i] != 's';
      }
    }
  }
}

=== FILE: login.dfy ===
/** The login form's `connect`: the three fields are trimmed and checked in
    a fixed order (all filled, port is a number, port in range, host
    resolves), then the socket is opened and the client's registration is
    attempted; a refused registration is classified by its message. */
module Login {
  import opened Options
  import opened Text
  import opened Protocol
  import opened Client

  // ---------------------------------------------------------------------
  // Integer.parseInt on ASCII text.
  // ---------------------------------------------------------------------

  const INT_MIN := -0x8000_0000
  const INT_MAX := 0x7fff_ffff

  predicate IsDigit(c: char) {
    '0' <= c <= '9'
  }

  predicate AllDigits(s: string) {
    forall i :: 0 <= i < |s| ==> IsDigit(s[i])
  }

  function DigitValue(c: char): (d: nat)
    requires IsDigit(c)
    ensures d < 10
  {
    (c as int) - ('0' as int)
  }

  /** The value of a run of decimal digits, most significant first. */
  function DigitsValue(s: string): nat
    requires AllDigits(s)
  {
    if |s| == 0 then 0 else 10 * DigitsValue(s[..|s| - 1]) + DigitValue(s[|s| - 1])
  }

  function Pow10(n: nat): (p: nat)
    ensures p >= 1
  {
    if n == 0 then 1 else 10 * Pow10(n - 1)
  }

  /** `n` digits never reach `10^n`. */
  lemma {:induction false} DigitsBound(s: string)
    requires AllDigits(s)
    ensures DigitsValue(s) < Pow10(|s|)
  {
    if |s| > 0 {
      DigitsBound(s[..|s| - 1]);
    }
  }

  /** The digits after an optional leading sign. */
  function Unsigned(s: string): string {
    if |s| > 0 && (s[0] == '+' || s[0] == '-') then s[1..] else s
  }

  /** `Integer.parseInt(s)`: an optional '+' or '-', then one or more
      decimal digits whose signed value fits in 32 bits; anything else,
      including a value out of range, is a format error (`None`). Every run
      of one to nine digits parses to its value. */
  function ParseInt(s: string): (r: Option<int>)
    ensures r.Some? ==> INT_MIN <= r.value <= INT_MAX
    ensures r.Some? ==> |Unsigned(s)| > 0 && AllDigits(Unsigned(s))
    ensures r.Some? && |s| > 0 && s[0] == '-' ==> r.value <= 0
    ensures 0 < |s| <= 9 && AllDigits(s) ==> r == Some(DigitsValue(s))
  {
    var digits := Unsigned(s);
    if |digits| == 0 || !AllDigits(digits) then None
    else
      DigitsBound(digits);
      assert |s| <= 9 ==> Pow10(|digits|) <= Pow10(9) by {
        if |s| <= 9 { Pow10Monotone(|digits|, 9); }
      }
      var magnitude: int := DigitsValue(digits);
      var value := if s[0] == '-' then -magnitude else magnitude;
      if INT_MIN <= value <= INT_MAX then Some(value) else None
  }

  lemma {:induction false} Pow10Monotone(m: nat, n: nat)
    requires m <= n
    ensures Pow10(m) <= Pow10(n)
    decreases n
  {
    if m < n {
      Pow10Monotone(m, n - 1);
    }
  }

  /** The decimal rendering of a natural number, without sign or leading
      zeros: the inverse of the digit reading. */
  function Show(n: nat): (s: string)
    ensures |s| > 0 && AllDigits(s)
  {
    var d := ['0' + (n % 10) as char];
    if n < 10 then d else Show(n / 10) + d
  }

  lemma {:induction false} ShowValue(n: nat)
    ensures DigitsValue(Show(n)) == n
  {
    var s := Show(n);
    if n >= 10 {
      ShowValue(n / 10);
      assert s[..|s| - 1] == Show(n / 10);
    }
  }

  /** Every 32-bit value, rendered in decimal, parses back to itself. */
  lemma {:induction false} ParseShow(n: int)
    requires INT_MIN <= n <= INT_MAX
    ensures n >= 0 ==> ParseInt(Show(n)) == Some(n)
    ensures n < 0 ==> ParseInt("-" + Show(-n)) == Some(n)
  {
    if n >= 0 {
      ShowValue(n);
      assert IsDigit(Show(n)[0]);
      assert Unsigned(Show(n)) == Show(n);
    } else {
      ShowValue(-n);
      assert Unsigned("-" + Show(-n)) == Show(-n);
    }
  }

  // ---------------------------------------------------------------------
  // The form.
  // ---------------------------------------------------------------------

  const PORT_MAX := 65535

  const FIELDS_EMPTY := "All fields must be filled"
  const PORT_RANGE := "Invalid port number. Port must be between 0 and 65535"
  const PORT_FORMAT := "Invalid port format. Please enter a valid number"
  const HOST_INVALID := "Invalid IP address format"
  const TAKEN_NOTICE := "This username is already taken. Please choose another one."
  const CONNECT_FAILED := "Connection failed. Please check your connection settings"

  /** The text a refusal's message must hold to be reported as a taken name. */
  const TAKEN_MARK := "already taken"

  datatype Check = Proceed(host: string, port: int, username: string) | Rejected(notice: string)

  /** The checks `connect` applies before opening a socket, in its order;
      `resolves` stands for the host-name lookup. Each notice is shown
      exactly when every earlier check passed and its own fails. */
  function Validate(ipField: string, portField: string, nameField: string, resolves: string -> bool)
    : (c: Check)
    ensures c == Rejected(FIELDS_EMPTY) <==>
              Trim(ipField) == "" || Trim(portField) == "" || Trim(nameField) == ""
    ensures c == Rejected(PORT_FORMAT) <==>
              && Trim(ipField) != "" && Trim(portField) != "" && Trim(nameField) != ""
              && ParseInt(Trim(portField)).None?
    ensures c == Rejected(PORT_RANGE) <==>
              && Trim(ipField) != "" && Trim(portField) != "" && Trim(nameField) != ""
              && ParseInt(Trim(portField)).Some?
              && !(0 <= ParseInt(Trim(portField)).value <= PORT_MAX)
    ensures c == Rejected(HOST_INVALID) <==>
              && Trim(ipField) != "" && Trim(portField) != "" && Trim(nameField) != ""
              && ParseInt(Trim(portField)).Some?
              && 0 <= ParseInt(Trim(portField)).value <= PORT_MAX
              && !resolves(Trim(ipField))
    ensures c.Proceed? <==>
              && Trim(ipField) != "" && Trim(portField) != "" && Trim(nameField) != ""
              && ParseInt(Trim(portField)).Some?
              && 0 <= ParseInt(Trim(portField)).value <= PORT_MAX
              && resolves(Trim(ipField))
    ensures c.Proceed? ==>
              && c.host == Trim(ipField) && resolves(c.host)
              && Some(c.port) == ParseInt(Trim(portField)) && 0 <= c.port <= PORT_MAX
              && c.username == Trim(nameField) && c.username != ""
  {
    var ip, port, name := Trim(ipField), Trim(portField), Trim(nameField);
    if name == "" || ip == "" || port == "" then Rejected(FIELDS_EMPTY)
    else match ParseInt(port)
      case None => Rejected(PORT_FORMAT)
      case Some(n) =>
        if n < 0 || n > PORT_MAX then Rejected(PORT_RANGE)
        else if !resolves(ip) then Rejected(HOST_INVALID)
        else Proceed(ip, n, name)
  }

  /** The notice for a refused registration: the taken notice exactly when
      the refusal's message holds "already taken", the generic failure
      otherwise. */
  function ClassifyRefusal(message: string): (notice: string)
    ensures notice == TAKEN_NOTICE <==> Contains(message, TAKEN_MARK)
    ensures notice != TAKEN_NOTICE ==> notice == CONNECT_FAILED
  {
    if Contains(message, TAKEN_MARK) then TAKEN_NOTICE else CONNECT_FAILED
  }

  /** The client's two refusal messages are told apart as intended. */
  lemma ClientRefusalsClassified()
    ensures ClassifyRefusal(TAKEN_ERROR) == TAKEN_NOTICE
    ensures ClassifyRefusal(REGISTRATION_ERROR) == CONNECT_FAILED
  {
    assert OccursAt(TAKEN_ERROR, TAKEN_MARK, 17);
    NotContainsByChar(REGISTRATION_ERROR, TAKEN_MARK, 6);
  }

  datatype LoginResult = LoggedIn(username: string) | Shown(notice: string)

  /** `connect` end to end. `reachable` stands for the socket connect with
      its timeout, and `response` for the line the server answers the
      username with (`None` when the stream ends first). */
  function Connect(ipField: string, portField: string, nameField: string,
                   resolves: string -> bool, reachable: (string, int) -> bool,
                   response: Option<string>): (res: LoginResult)
    ensures Validate(ipField, portField, nameField, resolves).Rejected? ==>
              res == Shown(Validate(ipField, portField, nameField, resolves).notice)
    ensures res.LoggedIn? <==>
              && Validate(ipField, portField, nameField, resolves).Proceed?
              && reachable(Trim(ipField), ParseInt(Trim(portField)).value)
              && response == Some(USERNAME_OK)
    ensures res.LoggedIn? ==> res.username == Trim(nameField)
    ensures res == Shown(TAKEN_NOTICE) <==>
              && Validate(ipField, portField, nameField, resolves).Proceed?
              && reachable(Trim(ipField), ParseInt(Trim(portField)).value)
              && response == Some(USERNAME_TAKEN)
    ensures res == Shown(CONNECT_FAILED) <==>
              && Validate(ipField, portField, nameField, resolves).Proceed?
              && (|| !reachable(Trim(ipField), ParseInt(Trim(portField)).value)
                  || (response != Some(USERNAME_OK) && response != Some(USERNAME_TAKEN)))
  {
    match Validate(ipField, portField, nameField, resolves)
    case Rejected(notice) => Shown(notice)
    case Proceed(host, port, username) =>
      if !reachable(host, port) then Shown(CONNECT_FAILED)
      else match CheckRegistrationReply(response)
        case Accepted => LoggedIn(username)
        case Refused(message) =>
          ClientRefusalsClassified();
          Shown(ClassifyRefusal(message))
  }

  /** Reading one more digit shifts the value one decimal place. */
  lemma {:induction false} DigitsSnoc(s: string, c: char, t: string)
    requires AllDigits(s) && IsDigit(c) && t == s + [c]
    ensures AllDigits(t) && DigitsValue(t) == 10 * DigitsValue(s) + DigitValue(c)
  {
    assert t[..|s|] == s;
  }

  /** A decimal numeral has no blank at either end, so trimming keeps it. */
  lemma {:induction false} NumeralTrimmed(n: nat)
    ensures Trim(Show(n)) == Show(n)
    ensures Trim("-" + Show(n)) == "-" + Show(n)
  {
    var s := Show(n);
    assert IsDigit(s[0]) && IsDigit(s[|s| - 1]);
    TrimOfTrimmed(s);
    var m := "-" + s;
    assert m[|m| - 1] == s[|s| - 1];
    TrimOfTrimmed(m);
  }

  lemma {:induction false} ParseNegative(n: nat)
    requires 0 < n <= -INT_MIN
    ensures ParseInt("-" + Show(n)) == Some(0 - n as int)
  {
    ShowValue(n);
    assert Unsigned("-" + Show(n)) == Show(n);
  }

  /** Decimal numerals past 32 bits are refused by the parse. */
  lemma {:induction false} ParseBeyondInt(n: nat)
    requires INT_MAX < n
    ensures ParseInt(Show(n)) == None
  {
    var s := Show(n);
    ShowValue(n);
    assert IsDigit(s[0]);
    assert Unsigned(s) == s;
  }

  /** With a resolvable host and a name, the outcome rests on the port. */
  lemma {:induction false} PortDecides(host: string, port: string, name: string, resolves: string -> bool)
    requires Trim(host) == host != "" && Trim(name) == name != "" && resolves(host)
    requires Trim(port) == port != ""
    ensures ParseInt(port).None? ==> Validate(host, port, name, resolves) == Rejected(PORT_FORMAT)
    ensures ParseInt(port).Some? && 0 <= ParseInt(port).value <= PORT_MAX ==>
              Validate(host, port, name, resolves) == Proceed(host, ParseInt(port).value, name)
    ensures ParseInt(port).Some? && !(0 <= ParseInt(port).value <= PORT_MAX) ==>
              Validate(host, port, name, resolves) == Rejected(PORT_RANGE)
  {
  }

  /** With the other fields valid, a decimal port is accepted exactly up to
      65535, and above that is a range error while it fits in 32 bits. */
  lemma {:induction false} PortInRange(host: string, name: string, resolves: string -> bool, n: nat)
    requires Trim(host) == host != "" && Trim(name) == name != "" && resolves(host)
    requires n <= INT_MAX
    ensures n <= PORT_MAX ==> Validate(host, Show(n), name, resolves) == Proceed(host, n, name)
    ensures PORT_MAX < n ==> Validate(host, Show(n), name, resolves) == Rejected(PORT_RANGE)
  {
    var port := Show(n);
    NumeralTrimmed(n);
    ParseShow(n);
    PortDecides(host, port, name, resolves);
  }

  /** A port number beyond 32 bits is a format error, not a range error. */
  lemma {:induction false} PortBeyondInt(host: string, name: string, resolves: string -> bool, n: nat)
    requires Trim(host) == host != "" && Trim(name) == name != "" && resolves(host)
    requires INT_MAX < n
    ensures Validate(host, Show(n), name, resolves) == Rejected(PORT_FORMAT)
  {
    var port := Show(n);
    NumeralTrimmed(n);
    ParseBeyondInt(n);
    PortDecides(host, port, name, resolves);
  }

  /** Every negative port that fits in 32 bits is a range error. */
  lemma {:induction false} PortNegative(host: string, name: string, resolves: string -> bool, n: nat)
    requires Trim(host) == host != "" && Trim(name) == name != "" && resolves(host)
    requires 0 < n <= -INT_MIN
    ensures Validate(host, "-" + Show(n), name, resolves) == Rejected(PORT_RANGE)
  {
    var port := "-" + Show(n);
    NumeralTrimmed(n);
    ParseNegative(n);
    PortDecides(host, port, name, resolves);
  }

  /** The numerals the form is usually tried with. */
  lemma ParseIntEdges()
    ensures ParseInt("65535") == Some(65535)
    ensures ParseInt("65536") == Some(65536)
    ensures ParseInt("-1") == Some(-1)
    ensures ParseInt("2147483648") == None
    ensures ParseInt("77x") == None
  {
    ValueOf65535();
    ParseShow(-1);
    assert Show(1) == "1";
    ValueOfIntMaxPlusOne();
    assert Unsigned("2147483648") == "2147483648";
    assert Unsigned("77x") == "77x" && !IsDigit("77x"[2]);
  }

  lemma {:induction false} ValueOf65535()
    ensures AllDigits("65535") && DigitsValue("65535") == 65535
    ensures AllDigits("65536") && DigitsValue("65536") == 65536
  {
    assert DigitsValue("6") == 6 by { assert "6"[..0] == ""; }
    DigitsSnoc("6", '5', "65");
    DigitsSnoc("65", '5', "655");
    DigitsSnoc("655", '3', "6553");
    DigitsSnoc("6553", '5', "65535");
    DigitsSnoc("6553", '6', "65536");
  }

  lemma {:induction false} ValueOfIntMaxPlusOne()
    ensures AllDigits("2147483648") && DigitsValue("2147483648") == INT_MAX + 1
  {
    ValueOf21474();
    DigitsSnoc("21474", '8', "214748");
    DigitsSnoc("214748", '3', "2147483");
    DigitsSnoc("2147483", '6', "21474836");
    DigitsSnoc("21474836", '4', "214748364");
    DigitsSnoc("214748364", '8', "2147483648");
  }

  /** The leading half of the numeral one past `INT_MAX`. */
  lemma {:induction false} ValueOf21474()
    ensures AllDigits("21474") && DigitsValue("21474") == 21474
  {
    assert DigitsValue("2") == 2 by { assert "2"[..0] == ""; }
    DigitsSnoc("2", '1', "21");
    DigitsSnoc("21", '4', "214");
    DigitsSnoc("214", '7', "2147");
    DigitsSnoc("2147", '4', "21474");
  }
}

=== FILE: options.dfy ===
/** The optional value used wherever the relay's Java code returns `null`,
    an empty `Optional`, or a one-element split. */
module Options {

  datatype Option<+T> = None | Some(value: T)

}

=== FILE: protocol.dfy ===
/** The relay's line protocol: the fixed replies, the server's outbound
    line formats, and the server's reading of an inbound line. */
module Protocol {
  import opened Options
  import opened Text

  const USERNAME_OK := "USERNAME_OK"
  const USERNAME_TAKEN := "USERNAME_TAKEN"
  const CLIENT_DISCONNECT := "CLIENT_DISCONNECT"
  const REQUEST_USER_LIST := "REQUEST_USER_LIST"

  const ALL_PREFIX := "MESSAGE_ALL "
  const TO_PREFIX := "MESSAGE_TO "
  const MULTIPLE_PREFIX := "MESSAGE_TO_MULTIPLE "
  const EXCEPT_PREFIX := "MESSAGE_EXCEPT "
  const PERSONAL_PREFIX := "MESSAGE_PERSONAL "
  const LIST_PREFIX := "CLIENT_LIST "

  /** The separator between an address and the message text. */
  const SEP := ": "

  /** The server cuts `MESSAGE_TO_MULTIPLE ` and `MESSAGE_EXCEPT ` one
      character short, so the address it splits off keeps a leading space. */
  const MULTIPLE_CUT := 19
  const EXCEPT_CUT := 14

  const BANNED_NOTICE := "MESSAGE_PERSONAL Server: Your message contains banned content"
  const NONE_FOUND_NOTICE := "MESSAGE_PERSONAL Server: None of the selected users were found"

  function NotFoundNotice(name: string): string {
    "MESSAGE_PERSONAL Server: User '" + name + "' not found"
  }

  function AllLine(sender: string, body: string): string {
    ALL_PREFIX + sender + SEP + body
  }

  function PersonalFromLine(sender: string, body: string): string {
    PERSONAL_PREFIX + "from " + sender + SEP + body
  }

  function PersonalToLine(recipient: string, body: string): string {
    PERSONAL_PREFIX + "To " + recipient + SEP + body
  }

  function MultipleConfirmLine(hits: seq<string>, body: string): string {
    PERSONAL_PREFIX + "To [" + Join(", ", hits) + "]" + SEP + body
  }

  function ExceptLine(sender: string, excluded: string, body: string): string {
    EXCEPT_PREFIX + sender + " (except " + excluded + ")" + SEP + body
  }

  function RosterLine(names: seq<string>): string {
    LIST_PREFIX + Join(", ", names)
  }

  /** What the server makes of one inbound line after registration. */
  datatype Command =
    | Disconnect
    | ListRequest
    | ToAll(body: string)
    | ToOne(recipient: string, body: string)
    | ToMany(recipients: string, body: string)
    | AllExcept(excluded: string, body: string)
      /** A routing prefix without the ": " separator: dropped. */
    | Malformed
      /** No routing prefix: filtered like a message, then ignored. */
    | Unrouted

  predicate IsControl(line: string) {
    line == CLIENT_DISCONNECT || line == REQUEST_USER_LIST
  }

  predicate HasRoutingPrefix(line: string) {
    || StartsWith(line, ALL_PREFIX)
    || StartsWith(line, TO_PREFIX)
    || StartsWith(line, MULTIPLE_PREFIX)
    || StartsWith(line, EXCEPT_PREFIX)
  }

  /** The dispatch of `handleMessage`. Each addressed command is the unique
      reading of the line in which the address holds no ": ". */
  function ParseCommand(line: string): (c: Command)
    ensures c.Disconnect? <==> line == CLIENT_DISCONNECT
    ensures c.ListRequest? <==> line == REQUEST_USER_LIST
    ensures c.Unrouted? <==> !IsControl(line) && !HasRoutingPrefix(line)
    ensures c.ToAll? ==> line == ALL_PREFIX + c.body
    ensures c.ToOne? ==> line == TO_PREFIX + c.recipient + SEP + c.body
                         && !Contains(c.recipient, SEP)
    ensures c.ToMany? ==> line == MULTIPLE_PREFIX[..MULTIPLE_CUT] + c.recipients + SEP + c.body
                          && !Contains(c.recipients, SEP)
    ensures c.AllExcept? ==> line == EXCEPT_PREFIX[..EXCEPT_CUT] + c.excluded + SEP + c.body
                             && !Contains(c.excluded, SEP)
    ensures c.Malformed? ==> HasRoutingPrefix(line) && !Contains(line, SEP)
  {
    if line == CLIENT_DISCONNECT then Disconnect
    else if line == REQUEST_USER_LIST then ListRequest
    else if StartsWith(line, ALL_PREFIX) then
      assert line == ALL_PREFIX + line[|ALL_PREFIX|..];
      ToAll(line[|ALL_PREFIX|..])
    else if StartsWith(line, TO_PREFIX) then
      assert ':' !in TO_PREFIX;
      match SplitAddressed(line, |TO_PREFIX|)
      case Some((u, b)) => ToOne(u, b)
      case None => Malformed
    else if StartsWith(line, MULTIPLE_PREFIX) then
      assert line[..MULTIPLE_CUT] == line[..|MULTIPLE_PREFIX|][..MULTIPLE_CUT] == MULTIPLE_PREFIX[..MULTIPLE_CUT];
      assert ':' !in MULTIPLE_PREFIX[..MULTIPLE_CUT];
      match SplitAddressed(line, MULTIPLE_CUT)
      case Some((us, b)) => ToMany(us, b)
      case None => Malformed
    else if StartsWith(line, EXCEPT_PREFIX) then
      assert line[..EXCEPT_CUT] == line[..|EXCEPT_PREFIX|][..EXCEPT_CUT] == EXCEPT_PREFIX[..EXCEPT_CUT];
      assert ':' !in EXCEPT_PREFIX[..EXCEPT_CUT];
      match SplitAddressed(line, EXCEPT_CUT)
      case Some((x, b)) => AllExcept(x, b)
      case None => Malformed
    else Unrouted
  }

  /** The address and body of a routed line: the text past the cut, split
      at its first ": ". The prefix before the cut holds no ':', so a line
      with no split has no separator at all. */
  function SplitAddressed(line: string, cut: nat): (r: Option<(string, string)>)
    requires cut <= |line| && ':' !in line[..cut]
    ensures r.None? ==> !Contains(line, SEP)
    ensures r.Some? ==> line == line[..cut] + r.value.0 + SEP + r.value.1
    ensures r.Some? ==> !Contains(r.value.0, SEP)
  {
    var r := SplitOnce(line[cut..], SEP);
    if r.None? then
      PrefixedNoSep(line, cut);
      r
    else
      SplitPast(line, cut, r.value.0, r.value.1);
      r
  }

  /** Rejoining a line split past a cut. */
  lemma {:induction false} SplitPast(line: string, cut: nat, u: string, b: string)
    requires cut <= |line| && line[cut..] == u + SEP + b
    ensures line == line[..cut] + u + SEP + b
  {
    assert line == line[..cut] + line[cut..];
  }

  /** A routing-prefixed line whose text past the cut has no separator has
      none at all: no prefix holds a ':'. */
  lemma {:induction false} PrefixedNoSep(line: string, cut: nat)
    requires cut <= |line| && ':' !in line[..cut]
    requires !Contains(line[cut..], SEP)
    ensures !Contains(line, SEP)
  {
    NotContainsByChar(line[..cut], SEP, 0);
    assert line == line[..cut] + line[cut..];
    ConcatNoOccurrence(line[..cut], line[cut..], SEP);
  }

  /** `extractActualMessage`: the text the banned-phrase filter inspects.
      After `MESSAGE_ALL ` it is the rest of the line; after another
      routing prefix it is what follows a ": " that ends the line with it,
      or empty; any other line is inspected whole. */
  function ExtractActualMessage(line: string): (m: string)
    ensures StartsWith(line, ALL_PREFIX) ==> line == ALL_PREFIX + m
    ensures HasRoutingPrefix(line) && !StartsWith(line, ALL_PREFIX) ==> m == "" || EndsWith(line, SEP + m)
    ensures !HasRoutingPrefix(line) ==> m == line
  {
    if StartsWith(line, ALL_PREFIX) then
      assert line == ALL_PREFIX + line[|ALL_PREFIX|..];
      line[|ALL_PREFIX|..]
    else if StartsWith(line, TO_PREFIX) then BodyPast(line, |TO_PREFIX|)
    else if StartsWith(line, MULTIPLE_PREFIX) then BodyPast(line, MULTIPLE_CUT)
    else if StartsWith(line, EXCEPT_PREFIX) then BodyPast(line, EXCEPT_CUT)
    else line
  }

  /** The text after the first ": " past the cut, or empty without one. */
  function BodyPast(line: string, cut: nat): (m: string)
    requires cut <= |line|
    ensures m == "" || EndsWith(line, SEP + m)
  {
    match SplitOnce(line[cut..], SEP)
    case Some((u, b)) =>
      SplitPast(line, cut, u, b);
      assert line[|line| - |SEP + b|..] == SEP + b;
      b
    case None => ""
  }

  /** The filter sees the body of an addressed command, the empty text for a
      malformed one, and the whole line otherwise. */
  lemma {:induction false} FilterSeesBody(line: string)
    ensures ParseCommand(line).ToAll? ==> ExtractActualMessage(line) == ParseCommand(line).body
    ensures ParseCommand(line).ToOne? ==> ExtractActualMessage(line) == ParseCommand(line).body
    ensures ParseCommand(line).ToMany? ==> ExtractActualMessage(line) == ParseCommand(line).body
    ensures ParseCommand(line).AllExcept? ==> ExtractActualMessage(line) == ParseCommand(line).body
    ensures ParseCommand(line).Malformed? ==> ExtractActualMessage(line) == ""
    ensures ParseCommand(line).Unrouted? ==> ExtractActualMessage(line) == line
  {
  }
}

=== FILE: registry.dfy ===
/** The server's live client registry, its delivery primitives, the roster
    it pushes to every client, and the case-insensitive name resolution
    used for addressing.

    A connection's outbound writer is modelled as its outbox: the lines
    written to it so far, oldest first. The registry's hash map has no
    specified iteration order, so the model carries the order it happens to
    iterate in; `findFirst`, `forEach` and the roster text all follow it. */
module Registry {
  import opened Options
  import opened Text
  import opened Protocol

  datatype Registry = Registry(order: seq<string>, outbox: map<string, seq<string>>)

  predicate NoDuplicates(s: seq<string>) {
    forall i, j :: 0 <= i < j < |s| ==> s[i] != s[j]
  }

  /** The iteration order lists every registered name exactly once. */
  ghost predicate Valid(r: Registry) {
    && NoDuplicates(r.order)
    && (forall k :: k in r.outbox <==> k in r.order)
  }

  /** `a` is `b` with some elements left out, the rest in their order:
      each element of `a` is matched to the earliest possible one of `b`. */
  predicate Subsequence(a: seq<string>, b: seq<string>)
    decreases |b|
  {
    if |a| == 0 then true
    else if |b| == 0 then false
    else if a[0] == b[0] then Subsequence(a[1..], b[1..])
    else Subsequence(a, b[1..])
  }

  /** `names` with `name` filtered out, order kept. */
  function Without(names: seq<string>, name: string): (r: seq<string>)
    ensures forall x :: x in r <==> x in names && x != name
    ensures Subsequence(r, names)
    ensures NoDuplicates(names) ==> NoDuplicates(r)
    ensures name !in names ==> r == names
  {
    if |names| == 0 then []
    else
      var rest := Without(names[1..], name);
      assert NoDuplicates(names) ==> names[0] !in names[1..] && NoDuplicates(names[1..]);
      if names[0] == name then rest else [names[0]] + rest
  }

  /** Appends one line to the outbox of a registered name. */
  function Deliver(r: Registry, name: string, line: string): (r': Registry)
    requires name in r.outbox
    ensures r'.order == r.order && r'.outbox.Keys == r.outbox.Keys
    ensures r'.outbox[name] == r.outbox[name] + [line]
    ensures forall k :: k in r.outbox && k != name ==> r'.outbox[k] == r.outbox[k]
  {
    Registry(r.order, r.outbox[name := r.outbox[name] + [line]])
  }

  /** The names listed to `k` in its roster: every other registered name. */
  function RosterFor(r: Registry, k: string): seq<string> {
    Without(r.order, k)
  }

  /** `names` lists each registered name other than `k` exactly once. */
  ghost predicate ListsOthers(names: seq<string>, r: Registry, k: string) {
    && NoDuplicates(names)
    && (forall x :: x in names <==> x in r.outbox && x != k)
  }

  /** `sendClientList`: every registered client is sent one `CLIENT_LIST`
      line naming every other registered client once, and never itself. */
  function SendRoster(r: Registry): (r': Registry)
    requires Valid(r)
    ensures Valid(r') && r'.order == r.order && r'.outbox.Keys == r.outbox.Keys
    ensures forall k :: k in r.outbox ==>
              && r'.outbox[k] == r.outbox[k] + [RosterLine(RosterFor(r, k))]
              && ListsOthers(RosterFor(r, k), r, k)
  {
    forall k | k in r.outbox
      ensures ListsOthers(RosterFor(r, k), r, k)
    {
      RosterListsOthers(r, k);
    }
    Registry(r.order, map k | k in r.outbox :: r.outbox[k] + [RosterLine(RosterFor(r, k))])
  }

  /** The roster sent to `k` lists every other registered name once. */
  lemma {:induction false} RosterListsOthers(r: Registry, k: string)
    requires Valid(r)
    ensures ListsOthers(RosterFor(r, k), r, k)
  {
    assert forall x :: x in RosterFor(r, k) <==> x in r.order && x != k;
  }

  /** The first name, in iteration order, equal to `name` ignoring case. */
  function FirstMatch(names: seq<string>, name: string, from: nat): (r: Option<nat>)
    requires from <= |names|
    ensures r.Some? ==> from <= r.value < |names| && EqualsIgnoreCase(names[r.value], name)
    ensures r.Some? ==> forall j :: from <= j < r.value ==> !EqualsIgnoreCase(names[j], name)
    ensures r.None? ==> forall j :: from <= j < |names| ==> !EqualsIgnoreCase(names[j], name)
    decreases |names| - from
  {
    if from == |names| then None
    else if EqualsIgnoreCase(names[from], name) then Some(from)
    else FirstMatch(names, name, from + 1)
  }

  /** Walking `names` in order, `x` is reached before any name equal to
      `name` ignoring case. */
  predicate FirstIn(names: seq<string>, x: string, name: string) {
    |names| > 0 && (names[0] == x || (!EqualsIgnoreCase(names[0], name) && FirstIn(names[1..], x, name)))
  }

  /** A name with no match before it is reached first. */
  lemma {:induction false} NoEarlierMatchFirstIn(names: seq<string>, name: string, from: nat, i: nat)
    requires from <= i < |names|
    requires forall j :: from <= j < i ==> !EqualsIgnoreCase(names[j], name)
    ensures FirstIn(names[from..], names[i], name)
    decreases i - from
  {
    if names[from] != names[i] {
      assert names[from..][1..] == names[from + 1..];
      NoEarlierMatchFirstIn(names, name, from + 1, i);
    }
  }

  /** The `keySet().stream().filter(equalsIgnoreCase(name.trim())).findFirst()`
      lookup: a registered name equal to the trimmed `name` ignoring case,
      and `None` only when there is no such name. The name found is the
      first match in iteration order. */
  function Resolve(r: Registry, name: string): (res: Option<string>)
    requires Valid(r)
    ensures res.Some? ==> res.value in r.outbox && EqualsIgnoreCase(res.value, Trim(name))
    ensures res.None? <==> forall k :: k in r.outbox ==> !EqualsIgnoreCase(k, Trim(name))
    ensures res.Some? ==> FirstIn(r.order, res.value, Trim(name))
  {
    match FirstMatch(r.order, Trim(name), 0)
    case Some(i) =>
      NoEarlierMatchFirstIn(r.order, Trim(name), 0, i);
      Some(r.order[i])
    case None => None
  }

  /** Resolution looks only at the trimmed name. */
  lemma {:induction false} SameTrimSameResolve(r: Registry, a: string, b: string)
    requires Valid(r) && Trim(a) == Trim(b)
    ensures Resolve(r, a) == Resolve(r, b)
  {
  }

  /** When only one registered name matches ignoring case, the iteration
      order does not matter: that name is found. */
  lemma {:induction false} ResolveUnique(r: Registry, name: string, k: string)
    requires Valid(r) && k in r.outbox && EqualsIgnoreCase(k, Trim(name))
    requires forall x :: x in r.outbox && EqualsIgnoreCase(x, Trim(name)) ==> x == k
    ensures Resolve(r, name) == Some(k)
  {
    var res := Resolve(r, name);
    assert !(forall x :: x in r.outbox ==> !EqualsIgnoreCase(x, Trim(name)));
    assert res.Some?;
  }
}

=== FILE: router.dfy ===
/** The server's session handling and message routing, as sequential steps
    over the registry: registration, the dispatch of one inbound line, the
    four addressing modes, disconnection, and one whole session. */
module Router {
  import opened Options
  import opened Text
  import opened Protocol
  import opened ContentFilter
  import opened Registry

  // ---------------------------------------------------------------------
  // Registration and teardown.
  // ---------------------------------------------------------------------

  datatype Registration = Registration(reply: string, registry: Registry)

  /** The registration handshake of `handleClient`: a name already present
      as an exact key is refused and nothing changes; otherwise the name is
      stored exactly as sent, its connection is told `USERNAME_OK`, and every
      client (the newcomer included) is sent a fresh roster. */
  function Register(r: Registry, name: string): (g: Registration)
    requires Valid(r)
    ensures Valid(g.registry)
    ensures name in r.outbox ==> g.reply == USERNAME_TAKEN && g.registry == r
    ensures name !in r.outbox ==>
              && g.reply == USERNAME_OK
              && g.registry.outbox.Keys == r.outbox.Keys + {name}
              && g.registry.outbox[name] == [USERNAME_OK, RosterLine(RosterFor(g.registry, name))]
              && ListsOthers(RosterFor(g.registry, name), g.registry, name)
    ensures name !in r.outbox ==>
              forall k :: k in r.outbox ==>
                && g.registry.outbox[k] == r.outbox[k] + [RosterLine(RosterFor(g.registry, k))]
                && ListsOthers(RosterFor(g.registry, k), g.registry, k)
  {
    if name in r.outbox then Registration(USERNAME_TAKEN, r)
    else
      var joined := Admit(r, name);
      var sent := SendRoster(joined);
      assert sent.outbox[name] == [USERNAME_OK] + [RosterLine(RosterFor(sent, name))];
      RosterListsOthers(sent, name);
      forall k | k in r.outbox
        ensures sent.outbox[k] == r.outbox[k] + [RosterLine(RosterFor(sent, k))]
        ensures ListsOthers(RosterFor(sent, k), sent, k)
      {
        assert joined.outbox[k] == r.outbox[k];
      }
      Registration(USERNAME_OK, sent)
  }

  /** The put of `handleClient`: the new name's outbox holds the
      `USERNAME_OK` reply, and the hash map iterates the new name last. */
  function Admit(r: Registry, name: string): (r': Registry)
    requires Valid(r) && name !in r.outbox
    ensures Valid(r')
    ensures r'.outbox == r.outbox[name := [USERNAME_OK]]
  {
    var r' := Registry(r.order + [name], r.outbox[name := [USERNAME_OK]]);
    assert forall k :: k in r'.order <==> k in r.order || k == name;
    r'
  }

  /** `handleClientDisconnect`, and equally the teardown in the `finally`
      block of `handleClient`: only a registered name is removed, and only
      then are the remaining clients sent a fresh roster. */
  function Disconnect(r: Registry, name: string): (r': Registry)
    requires Valid(r)
    ensures Valid(r')
    ensures name !in r.outbox ==> r' == r
    ensures name in r.outbox ==>
              && r'.outbox.Keys == r.outbox.Keys - {name}
              && forall k :: k in r'.outbox ==>
                   && r'.outbox[k] == r.outbox[k] + [RosterLine(RosterFor(r', k))]
                   && ListsOthers(RosterFor(r', k), r', k)
  {
    if name !in r.outbox then r
    else
      var left := Registry(Without(r.order, name), r.outbox - {name});
      assert Valid(left);
      SendRoster(left)
  }

  /** Teardown happens once: a second disconnect of the same name changes
      nothing. */
  lemma {:induction false} DisconnectIdempotent(r: Registry, name: string)
    requires Valid(r)
    ensures Disconnect(Disconnect(r, name), name) == Disconnect(r, name)
  {
    var r1 := Disconnect(r, name);
    assert name !in r1.outbox;
  }

  // ---------------------------------------------------------------------
  // The four addressing modes.
  // ---------------------------------------------------------------------

  /** `broadcastMessage`: every registered client, the sender included,
      gains exactly the one line `MESSAGE_ALL <sender>: <body>`. */
  function BroadcastAll(r: Registry, sender: string, body: string): (r': Registry)
    requires Valid(r) && sender in r.outbox
    ensures Valid(r') && r'.order == r.order && r'.outbox.Keys == r.outbox.Keys
    ensures forall k :: k in r.outbox ==>
              && |r'.outbox[k]| == |r.outbox[k]| + 1
              && r'.outbox[k][..|r.outbox[k]|] == r.outbox[k]
              && r'.outbox[k][|r.outbox[k]|] == AllLine(sender, body)
  {
    Registry(r.order, map k | k in r.outbox :: r.outbox[k] + [AllLine(sender, body)])
  }

  /** `sendPersonalMessage`: the recipient is resolved ignoring case after
      trimming. When found, that client gets the "from" line and the sender
      a confirmation naming the recipient as registered; otherwise only the
      sender hears, and the notice quotes the name as typed. */
  function SendDirect(r: Registry, sender: string, recipient: string, body: string): (r': Registry)
    requires Valid(r) && sender in r.outbox
    ensures Valid(r') && r'.order == r.order && r'.outbox.Keys == r.outbox.Keys
    ensures Resolve(r, recipient).Some? ==>
              var to := Resolve(r, recipient).value;
              && EqualsIgnoreCase(to, Trim(recipient))
              && forall k :: k in r.outbox ==>
                   r'.outbox[k] == r.outbox[k]
                                   + (if k == to then [PersonalFromLine(sender, body)] else [])
                                   + (if k == sender then [PersonalToLine(to, body)] else [])
    ensures Resolve(r, recipient).None? ==>
              && (forall k :: k in r.outbox ==> !EqualsIgnoreCase(k, Trim(recipient)))
              && r'.outbox == r.outbox[sender := r.outbox[sender] + [NotFoundNotice(recipient)]]
  {
    match Resolve(r, recipient)
    case Some(to) =>
      var from := Deliver(r, to, PersonalFromLine(sender, body));
      var both := Deliver(from, sender, PersonalToLine(to, body));
      forall k | k in r.outbox
        ensures both.outbox[k] == r.outbox[k]
                                  + (if k == to then [PersonalFromLine(sender, body)] else [])
                                  + (if k == sender then [PersonalToLine(to, body)] else [])
      {
        assert from.outbox[k] == r.outbox[k] + (if k == to then [PersonalFromLine(sender, body)] else []);
      }
      both
    case None =>
      Deliver(r, sender, NotFoundNotice(recipient))
  }

  /** How many comma pieces name `k` exactly once trimmed. */
  function CountNamed(pieces: seq<string>, k: string): nat {
    if |pieces| == 0 then 0
    else (if Trim(pieces[0]) == k then 1 else 0) + CountNamed(pieces[1..], k)
  }

  /** Each piece trimmed, in order. */
  function TrimEach(pieces: seq<string>): (ts: seq<string>)
    ensures |ts| == |pieces| && forall i :: 0 <= i < |pieces| ==> ts[i] == Trim(pieces[i])
  {
    if |pieces| == 0 then [] else [Trim(pieces[0])] + TrimEach(pieces[1..])
  }

  /** The trimmed pieces that are registered names, exact case, in input
      order, repeats kept. */
  function Hits(r: Registry, pieces: seq<string>): (hits: seq<string>)
    ensures forall x :: x in hits ==> x in r.outbox
    ensures forall k :: k in r.outbox ==> multiset(hits)[k] == CountNamed(pieces, k)
    ensures Subsequence(hits, TrimEach(pieces))
  {
    if |pieces| == 0 then []
    else
      var rest := Hits(r, pieces[1..]);
      var t := Trim(pieces[0]);
      var ts := TrimEach(pieces);
      assert ts[0] == t && ts[1..] == TrimEach(pieces[1..]);
      if t in r.outbox then
        assert forall k :: multiset([t] + rest)[k] == multiset(rest)[k] + (if t == k then 1 else 0);
        assert ([t] + rest)[1..] == rest;
        [t] + rest
      else
        SkipHead(rest, ts);
        rest
  }

  /** A subsequence of the tail is a subsequence of the whole. */
  lemma {:induction false} SkipHead(a: seq<string>, b: seq<string>)
    requires |b| > 0 && Subsequence(a, b[1..])
    ensures Subsequence(a, b)
    decreases |b|, 0
  {
    if |a| > 0 && a[0] == b[0] {
      DropFirst(a, b[1..]);
    }
  }

  /** Leaving out the first element keeps a subsequence one. */
  lemma {:induction false} DropFirst(a: seq<string>, c: seq<string>)
    requires |a| > 0 && Subsequence(a, c)
    ensures Subsequence(a[1..], c)
    decreases |c|, 1
  {
    if a[0] == c[0] {
      SkipHead(a[1..], c);
    } else {
      DropFirst(a, c[1..]);
      SkipHead(a[1..], c);
    }
  }

  function Repeat(line: string, n: nat): (s: seq<string>)
    ensures |s| == n && forall i :: 0 <= i < n ==> s[i] == line
  {
    if n == 0 then [] else [line] + Repeat(line, n - 1)
  }

  /** The first element counts once more than the rest. */
  lemma {:induction false} CountHead(names: seq<string>, k: string)
    requires |names| > 0
    ensures multiset(names)[k] == multiset(names[1..])[k] + (if k == names[0] then 1 else 0)
  {
    assert names == [names[0]] + names[1..];
  }

  /** One delivery followed by `n` more is `n + 1` deliveries. */
  lemma {:induction false} RepeatAfter(before: seq<string>, line: string, n: nat, hit: bool)
    ensures (before + (if hit then [line] else [])) + Repeat(line, n)
            == before + Repeat(line, n + (if hit then 1 else 0))
  {
    if hit {
      assert Repeat(line, n + 1) == [line] + Repeat(line, n);
    }
  }

  /** Appends `line` to the outbox of each name of `names`, in order. */
  function DeliverEach(r: Registry, names: seq<string>, line: string): (r': Registry)
    requires forall x :: x in names ==> x in r.outbox
    ensures r'.order == r.order && r'.outbox.Keys == r.outbox.Keys
    ensures forall k :: k in r.outbox ==>
              r'.outbox[k] == r.outbox[k] + Repeat(line, multiset(names)[k])
    decreases |names|
  {
    if |names| == 0 then
      assert forall k :: k in r.outbox ==> r.outbox[k] + Repeat(line, 0) == r.outbox[k];
      r
    else
      var r1 := Deliver(r, names[0], line);
      var r2 := DeliverEach(r1, names[1..], line);
      forall k | k in r.outbox
        ensures r2.outbox[k] == r.outbox[k] + Repeat(line, multiset(names)[k])
      {
        CountHead(names, k);
        RepeatAfter(r.outbox[k], line, multiset(names[1..])[k], k == names[0]);
      }
      r2
  }

  /** The confirmation the sender of a multi-recipient message receives. */
  function MultipleReply(hits: seq<string>, body: string): string {
    if |hits| > 0 then MultipleConfirmLine(hits, body) else NONE_FOUND_NOTICE
  }

  /** `sendPersonalMessageToMultiple`: the list is split on commas, each
      piece trimmed and looked up exactly (case matters here). Every
      registered name gets one "from" line per piece naming it; then the
      sender gets one confirmation listing the hits in input order, or the
      none-found notice when there are none. */
  function SendMultiple(r: Registry, sender: string, list: string, body: string): (r': Registry)
    requires Valid(r) && sender in r.outbox
    ensures Valid(r') && r'.order == r.order && r'.outbox.Keys == r.outbox.Keys
    ensures forall k :: k in r.outbox ==>
              r'.outbox[k] == r.outbox[k]
                              + Repeat(PersonalFromLine(sender, body), CountNamed(Split(list, ","), k))
                              + (if k == sender
                                 then [MultipleReply(Hits(r, Split(list, ",")), body)]
                                 else [])
  {
    var hits := Hits(r, Split(list, ","));
    var delivered := DeliverEach(r, hits, PersonalFromLine(sender, body));
    Deliver(delivered, sender, MultipleReply(hits, body))
  }

  /** `broadcastMessageExcept`: the excluded name is resolved ignoring case
      after trimming. When found, every other registered client (the sender
      too, unless excluded) gains the except line naming the excluded client
      as registered; otherwise only the sender hears, and the notice quotes
      the name as received. */
  function BroadcastExcept(r: Registry, sender: string, excluded: string, body: string): (r': Registry)
    requires Valid(r) && sender in r.outbox
    ensures Valid(r') && r'.order == r.order && r'.outbox.Keys == r.outbox.Keys
    ensures Resolve(r, excluded).Some? ==>
              var x := Resolve(r, excluded).value;
              && EqualsIgnoreCase(x, Trim(excluded))
              && r'.outbox[x] == r.outbox[x]
              && forall k :: k in r.outbox && k != x ==>
                   r'.outbox[k] == r.outbox[k] + [ExceptLine(sender, x, body)]
    ensures Resolve(r, excluded).None? ==>
              && (forall k :: k in r.outbox ==> !EqualsIgnoreCase(k, Trim(excluded)))
              && r'.outbox == r.outbox[sender := r.outbox[sender] + [NotFoundNotice(excluded)]]
  {
    match Resolve(r, excluded)
    case Some(x) =>
      var line := ExceptLine(sender, x, body);
      Registry(r.order, map k | k in r.outbox :: if k == x then r.outbox[k] else r.outbox[k] + [line])
    case None =>
      Deliver(r, sender, NotFoundNotice(excluded))
  }

  // ---------------------------------------------------------------------
  // Dispatch of one inbound line, and a whole session.
  // ---------------------------------------------------------------------

  /** `handleMessage`: the two control lines act before any filtering; any
      other line is filtered on its extracted body, a blocked line earns the
      sender the banned-content notice and nothing else, and an unblocked
      one is routed by its prefix. */
  function Dispatch(r: Registry, banned: seq<string>, sender: string, line: string): (r': Registry)
    requires Valid(r) && sender in r.outbox
    ensures Valid(r')
    ensures r'.outbox.Keys == if line == CLIENT_DISCONNECT then r.outbox.Keys - {sender}
                              else r.outbox.Keys
    ensures line == CLIENT_DISCONNECT ==> r' == Disconnect(r, sender)
    ensures line == REQUEST_USER_LIST ==> r' == SendRoster(r)
    ensures !IsControl(line) && ContainsBannedPhrase(banned, ExtractActualMessage(line)) ==>
              r'.outbox == r.outbox[sender := r.outbox[sender] + [BANNED_NOTICE]]
    ensures !IsControl(line) && !ContainsBannedPhrase(banned, ExtractActualMessage(line))
            && (ParseCommand(line).Malformed? || ParseCommand(line).Unrouted?) ==>
              r' == r
    ensures !IsControl(line) && !ContainsBannedPhrase(banned, ExtractActualMessage(line)) ==>
              match ParseCommand(line)
              case ToAll(body) => r' == BroadcastAll(r, sender, body)
              case ToOne(recipient, body) => r' == SendDirect(r, sender, recipient, body)
              case ToMany(list, body) => r' == SendMultiple(r, sender, list, body)
              case AllExcept(excluded, body) => r' == BroadcastExcept(r, sender, excluded, body)
              case _ => true
  {
    if line == CLIENT_DISCONNECT then Disconnect(r, sender)
    else if line == REQUEST_USER_LIST then SendRoster(r)
    else if ContainsBannedPhrase(banned, ExtractActualMessage(line)) then
      Deliver(r, sender, BANNED_NOTICE)
    else
      match ParseCommand(line)
      case ToAll(body) => BroadcastAll(r, sender, body)
      case ToOne(recipient, body) => SendDirect(r, sender, recipient, body)
      case ToMany(list, body) => SendMultiple(r, sender, list, body)
      case AllExcept(excluded, body) => BroadcastExcept(r, sender, excluded, body)
      case _ => r
  }

  /** The read loop of one registered client followed by its teardown: lines
      are dispatched in order until `CLIENT_DISCONNECT` (which closes the
      connection and so ends the loop) or the end of input. */
  function Serve(r: Registry, banned: seq<string>, name: string, lines: seq<string>): (r': Registry)
    requires Valid(r) && name in r.outbox
    ensures Valid(r')
    ensures r'.outbox.Keys == r.outbox.Keys - {name}
    decreases |lines|
  {
    if |lines| == 0 then Disconnect(r, name)
    else
      var r1 := Dispatch(r, banned, name, lines[0]);
      if lines[0] == CLIENT_DISCONNECT then Disconnect(r1, name)
      else Serve(r1, banned, name, lines[1..])
  }

  /** `handleClient` for one connection whose first line is `name`: a taken
      name leaves the registry as it was; an accepted one is served and torn
      down, so afterwards exactly the previously registered names remain. */
  function Session(r: Registry, banned: seq<string>, name: string, lines: seq<string>): (g: Registration)
    requires Valid(r)
    ensures Valid(g.registry)
    ensures name in r.outbox ==> g.reply == USERNAME_TAKEN && g.registry == r
    ensures name !in r.outbox ==> g.reply == USERNAME_OK && g.registry.outbox.Keys == r.outbox.Keys
  {
    var joined := Register(r, name);
    if joined.reply == USERNAME_TAKEN then joined
    else Registration(USERNAME_OK, Serve(joined.registry, banned, name, lines))
  }
}

=== FILE: text.dfy ===
/** The `java.lang.String` operations the relay relies on, with Java's exact
    edge cases: `startsWith`, `indexOf`, `split(sep, 2)`, `split(sep)` (which
    drops trailing empty pieces), `String.join`, `trim` and an ASCII
    `toLowerCase`. */
module Text {
  import opened Options

  predicate StartsWith(s: string, p: string) {
    |p| <= |s| && s[..|p|] == p
  }

  predicate EndsWith(s: string, p: string) {
    |p| <= |s| && s[|s| - |p|..] == p
  }

  /** `t` occurs in `s` starting at index `i`. */
  predicate OccursAt(s: string, t: string, i: int) {
    0 <= i && i + |t| <= |s| && s[i..i + |t|] == t
  }

  /** `s.contains(t)` */
  predicate Contains(s: string, t: string) {
    exists i :: 0 <= i <= |s| - |t| && OccursAt(s, t, i)
  }

  /** `s.indexOf(t)`, with `None` for Java's -1. */
  function IndexOf(s: string, t: string): (r: Option<nat>)
    ensures r.Some? ==> OccursAt(s, t, r.value)
    ensures r.Some? ==> forall j :: 0 <= j < r.value ==> !OccursAt(s, t, j)
    ensures r.None? <==> !Contains(s, t)
  {
    IndexFrom(s, t, 0)
  }

  function IndexFrom(s: string, t: string, from: nat): (r: Option<nat>)
    ensures r.Some? ==> from <= r.value && OccursAt(s, t, r.value)
    ensures r.Some? ==> forall j :: from <= j < r.value ==> !OccursAt(s, t, j)
    ensures r.None? ==> forall j :: from <= j ==> !OccursAt(s, t, j)
    decreases |s| - from
  {
    if from + |t| > |s| then None
    else if s[from..from + |t|] == t then Some(from)
    else IndexFrom(s, t, from + 1)
  }

  /** `s.split(sep, 2)` for a separator without regular-expression
      metacharacters: the text before and after the first occurrence, or
      `None` when Java returns a one-element array. */
  function SplitOnce(s: string, sep: string): (r: Option<(string, string)>)
    requires |sep| > 0
    ensures r.None? <==> !Contains(s, sep)
    ensures r.Some? ==> s == r.value.0 + sep + r.value.1
    ensures r.Some? ==> OccursAt(s, sep, |r.value.0|)
    ensures r.Some? ==> forall j :: 0 <= j < |r.value.0| ==> !OccursAt(s, sep, j)
    ensures r.Some? ==> !Contains(r.value.0, sep)
  {
    match IndexOf(s, sep)
    case None => None
    case Some(i) =>
      var head := s[..i];
      assert s == head + sep + s[i + |sep|..];
      NoOccurrenceInSlice(s, sep, 0, i);
      assert s[0..i] == head;
      Some((head, s[i + |sep|..]))
  }

  /** `String.join(sep, xs)` */
  function Join(sep: string, xs: seq<string>): string
  {
    if |xs| == 0 then ""
    else if |xs| == 1 then xs[0]
    else xs[0] + sep + Join(sep, xs[1..])
  }

  /** A character absent from the separator and from every item is absent
      from their join. */
  lemma {:induction false} CharNotInJoin(c: char, sep: string, xs: seq<string>)
    requires c !in sep && forall k :: 0 <= k < |xs| ==> c !in xs[k]
    ensures c !in Join(sep, xs)
    decreases |xs|
  {
    if |xs| > 1 {
      CharNotInJoin(c, sep, xs[1..]);
    }
  }

  /** Prefixing the first item prefixes the join. */
  lemma {:induction false} JoinPrefixFirst(p: string, sep: string, xs: seq<string>)
    requires |xs| > 0
    ensures Join(sep, [p + xs[0]] + xs[1..]) == p + Join(sep, xs)
  {
    var ys := [p + xs[0]] + xs[1..];
    assert ys[0] == p + xs[0] && ys[1..] == xs[1..];
  }

  /** Every piece between occurrences of `sep`, trailing empty pieces kept. */
  function Pieces(s: string, sep: string): (r: seq<string>)
    requires |sep| > 0
    ensures |r| >= 1
    ensures Join(sep, r) == s
    ensures forall k :: 0 <= k < |r| ==> !Contains(r[k], sep)
    decreases |s|
  {
    match IndexOf(s, sep)
    case None => [s]
    case Some(i) =>
      var head := s[..i];
      var rest := Pieces(s[i + |sep|..], sep);
      assert s == head + sep + s[i + |sep|..];
      assert !Contains(head, sep) by {
        forall j | 0 <= j <= |head| - |sep|
          ensures !OccursAt(head, sep, j)
        {
          assert head[j..j + |sep|] == s[j..j + |sep|];
          assert !OccursAt(s, sep, j);
        }
      }
      [head] + rest
  }

  function DropTrailingEmpty(xs: seq<string>): (r: seq<string>)
    ensures |r| <= |xs| && r == xs[..|r|]
    ensures |r| == 0 || r[|r| - 1] != ""
    ensures forall k :: |r| <= k < |xs| ==> xs[k] == ""
  {
    if |xs| == 0 then xs
    else if xs[|xs| - 1] == "" then DropTrailingEmpty(xs[..|xs| - 1])
    else xs
  }

  /** `s.split(sep)` (limit 0) for a separator without regular-expression
      metacharacters: when `sep` does not occur Java returns `[s]` as is
      (so `"".split(",")` is `[""]`); otherwise it splits at every
      occurrence and drops trailing empty pieces. */
  function Split(s: string, sep: string): (r: seq<string>)
    requires |sep| > 0
    ensures !Contains(s, sep) ==> r == [s]
    ensures Contains(s, sep) ==> r == DropTrailingEmpty(Pieces(s, sep))
    ensures forall k :: 0 <= k < |r| ==> !Contains(r[k], sep)
  {
    if !Contains(s, sep) then [s] else DropTrailingEmpty(Pieces(s, sep))
  }

  /** Java's `trim`: every character at or below U+0020 counts as blank. */
  predicate IsBlank(c: char) {
    c <= ' '
  }

  function TrimStart(s: string): (r: string)
    ensures |r| <= |s| && r == s[|s| - |r|..]
    ensures forall i :: 0 <= i < |s| - |r| ==> IsBlank(s[i])
    ensures |r| == 0 || !IsBlank(r[0])
  {
    if |s| > 0 && IsBlank(s[0]) then TrimStart(s[1..]) else s
  }

  function TrimEnd(s: string): (r: string)
    ensures |r| <= |s| && r == s[..|r|]
    ensures forall i :: |r| <= i < |s| ==> IsBlank(s[i])
    ensures |r| == 0 || !IsBlank(r[|r| - 1])
  {
    if |s| > 0 && IsBlank(s[|s| - 1]) then TrimEnd(s[..|s| - 1]) else s
  }

  /** `r` is the infix of `s` at offset `i`, and everything outside it is
      blank. */
  predicate TrimmedAt(s: string, r: string, i: int) {
    && 0 <= i <= |s| - |r|
    && r == s[i..i + |r|]
    && (forall k :: 0 <= k < i ==> IsBlank(s[k]))
    && (forall k :: i + |r| <= k < |s| ==> IsBlank(s[k]))
  }

  /** `s.trim()`: the infix with no blank at either end such that
      everything cut away is blank. */
  function Trim(s: string): (r: string)
    ensures |r| == 0 || (!IsBlank(r[0]) && !IsBlank(r[|r| - 1]))
    ensures exists i :: TrimmedAt(s, r, i)
  {
    var t := TrimStart(s);
    var r := TrimEnd(t);
    TrimBothEnds(s, t, r);
    assert |r| == 0 || r[0] == t[0];
    assert TrimmedAt(s, r, |s| - |t|);
    r
  }

  /** Cutting a blank prefix and then a blank suffix leaves an infix cut
      only from blanks. */
  lemma {:induction false} TrimBothEnds(s: string, t: string, r: string)
    requires |t| <= |s| && t == s[|s| - |t|..]
    requires forall k :: 0 <= k < |s| - |t| ==> IsBlank(s[k])
    requires |r| <= |t| && r == t[..|r|]
    requires forall k :: |r| <= k < |t| ==> IsBlank(t[k])
    ensures TrimmedAt(s, r, |s| - |t|)
  {
    var i := |s| - |t|;
    forall k | 0 <= k < |r|
      ensures r[k] == s[i + k]
    {
      assert r[k] == t[k] == s[i + k];
    }
    assert r == s[i..i + |r|];
    forall k | i + |r| <= k < |s|
      ensures IsBlank(s[k])
    {
      assert s[k] == t[k - i];
    }
  }

  /** Java's `toLowerCase`, restricted to the ASCII letters. */
  function LowerChar(c: char): char {
    if 'A' <= c <= 'Z' then (c as int + 32) as char else c
  }

  function Lower(s: string): (r: string)
    ensures |r| == |s|
    ensures forall i :: 0 <= i < |s| ==> r[i] == LowerChar(s[i])
  {
    seq(|s|, i requires 0 <= i < |s| => LowerChar(s[i]))
  }

  /** Java's `equalsIgnoreCase`, restricted to the ASCII letters. */
  predicate EqualsIgnoreCase(a: string, b: string) {
    Lower(a) == Lower(b)
  }

  // ---------------------------------------------------------------------
  // Facts about occurrences, splitting and trimming.
  // ---------------------------------------------------------------------

  /** `sep` overlaps itself when a proper suffix equals a proper prefix. */
  predicate BorderAt(sep: string, k: int)
    requires 0 < k < |sep|
  {
    sep[k..] == sep[..|sep| - k]
  }

  predicate NoBorder(sep: string) {
    forall k :: 0 < k < |sep| ==> !BorderAt(sep, k)
  }

  /** A separator whose first character does not recur in it cannot
      overlap itself. */
  lemma {:induction false} NoBorderByFirstChar(sep: string)
    requires |sep| > 0
    requires forall i :: 0 < i < |sep| ==> sep[i] != sep[0]
    ensures NoBorder(sep)
  {
    forall k | 0 < k < |sep|
      ensures !BorderAt(sep, k)
    {
      assert sep[k..][0] == sep[k];
      assert sep[..|sep| - k][0] == sep[0];
    }
  }

  /** A string lacking some character of `t` does not contain `t`. */
  lemma {:induction false} NotContainsByChar(s: string, t: string, k: nat)
    requires k < |t| && t[k] !in s
    ensures !Contains(s, t)
  {
    forall i | 0 <= i <= |s| - |t|
      ensures !OccursAt(s, t, i)
    {
      assert s[i..i + |t|][k] == s[i + k];
      assert s[i + k] in s;
    }
  }

  /** For a one-character separator, containment is membership. */
  lemma {:induction false} ContainsChar(s: string, c: char)
    ensures Contains(s, [c]) <==> c in s
  {
    if c in s {
      var i :| 0 <= i < |s| && s[i] == c;
      assert s[i..i + 1] == [c];
      assert OccursAt(s, [c], i);
    } else {
      NotContainsByChar(s, [c], 0);
    }
  }

  /** An occurrence in `a + b` lies in `a`, in `b`, or straddles the seam. */
  lemma {:induction false} ConcatNoOccurrence(a: string, b: string, t: string)
    requires !Contains(a, t) && !Contains(b, t)
    requires forall k :: 0 < k < |t| ==> !(EndsWith(a, t[..k]) && StartsWith(b, t[k..]))
    ensures !Contains(a + b, t)
  {
    var s := a + b;
    forall i | 0 <= i <= |s| - |t|
      ensures !OccursAt(s, t, i)
    {
      if i + |t| <= |a| {
        assert s[i..i + |t|] == a[i..i + |t|];
        assert !OccursAt(a, t, i);
      } else if i >= |a| {
        assert s[i..i + |t|] == b[i - |a|..i - |a| + |t|];
        assert !OccursAt(b, t, i - |a|);
      } else {
        var k := |a| - i;
        var w := s[i..i + |t|];
        assert w[..k] == s[i..|a|] == a[i..];
        assert w[k..] == s[|a|..i + |t|] == b[..|t| - k];
        assert !(EndsWith(a, t[..k]) && StartsWith(b, t[k..]));
        assert w[..k] != t[..k] || w[k..] != t[k..];
      }
    }
  }

  /** The first occurrence of a self-non-overlapping separator in
      `x + sep + y` is the one right after `x`, when `x` holds none. */
  lemma {:induction false} FirstOccurrence(x: string, sep: string, y: string)
    requires NoBorder(sep) && !Contains(x, sep)
    ensures IndexOf(x + sep + y, sep) == Some(|x|)
  {
    var s := x + sep + y;
    assert s[|x|..|x| + |sep|] == sep;
    assert OccursAt(s, sep, |x|);
    assert Contains(s, sep);
    forall j | 0 <= j < |x|
      ensures !OccursAt(s, sep, j)
    {
      if j + |sep| <= |x| {
        assert s[j..j + |sep|] == x[j..j + |sep|];
        assert !OccursAt(x, sep, j);
      } else {
        var k := |x| - j;
        assert s[j..j + |sep|][k..] == s[|x|..|x| + |sep|][..|sep| - k];
        assert s[j..j + |sep|][k..] == sep[..|sep| - k];
        assert !BorderAt(sep, k);
      }
    }
  }

  /** A slice holds no occurrence the whole string does not hold there. */
  lemma {:induction false} NoOccurrenceInSlice(s: string, t: string, lo: nat, hi: nat)
    requires lo <= hi <= |s|
    requires forall j :: lo <= j && j + |t| <= hi ==> !OccursAt(s, t, j)
    ensures !Contains(s[lo..hi], t)
  {
    var x := s[lo..hi];
    forall j | 0 <= j <= |x| - |t|
      ensures !OccursAt(x, t, j)
    {
      var at := lo + j;
      var w, v := x[j..j + |t|], s[at..at + |t|];
      forall k | 0 <= k < |t|
        ensures w[k] == v[k]
      {
        assert w[k] == x[j + k] == s[at + k];
      }
      assert w == v;
      assert at + |t| <= hi;
      assert !OccursAt(s, t, at);
    }
  }

  /** An occurrence with no earlier copy of the needle's first character
      is the first occurrence. */
  lemma {:induction false} FirstOccurrenceAt(s: string, t: string, i: nat)
    requires |t| > 0 && OccursAt(s, t, i)
    requires forall j :: 0 <= j < i ==> s[j] != t[0]
    ensures IndexOf(s, t) == Some(i)
  {
    assert Contains(s, t);
    var k := IndexOf(s, t).value;
    assert s[k] == s[k..k + |t|][0] == t[0];
  }

  /** Splitting at the first separator recovers both sides, even when the
      right-hand side itself contains the separator. */
  lemma {:induction false} SplitOnceRoundTrip(x: string, sep: string, y: string)
    requires NoBorder(sep) && !Contains(x, sep)
    requires |sep| > 0
    ensures SplitOnce(x + sep + y, sep) == Some((x, y))
  {
    FirstOccurrence(x, sep, y);
    var s := x + sep + y;
    assert s[..|x|] == x;
    assert s[|x| + |sep|..] == y;
  }

  lemma {:induction false} PiecesOfJoin(sep: string, xs: seq<string>)
    requires |sep| > 0 && NoBorder(sep) && |xs| >= 1
    requires forall k :: 0 <= k < |xs| ==> !Contains(xs[k], sep)
    ensures Pieces(Join(sep, xs), sep) == xs
    decreases |xs|
  {
    if |xs| == 1 {
      assert Join(sep, xs) == xs[0];
    } else {
      var rest := Join(sep, xs[1..]);
      assert Join(sep, xs) == xs[0] + sep + rest;
      FirstOccurrence(xs[0], sep, rest);
      var s := xs[0] + sep + rest;
      assert s[..|xs[0]|] == xs[0];
      assert s[|xs[0]| + |sep|..] == rest;
      PiecesOfJoin(sep, xs[1..]);
      assert xs == [xs[0]] + xs[1..];
    }
  }

  /** `String.join` followed by `split` is the identity, provided no element
      holds the separator and the last element is not empty (Java would
      drop it). */
  lemma {:induction false} SplitJoinRoundTrip(sep: string, xs: seq<string>)
    requires |sep| > 0 && NoBorder(sep) && |xs| >= 1 && xs[|xs| - 1] != ""
    requires forall k :: 0 <= k < |xs| ==> !Contains(xs[k], sep)
    ensures Split(Join(sep, xs), sep) == xs
  {
    var s := Join(sep, xs);
    PiecesOfJoin(sep, xs);
    if |xs| == 1 {
      assert s == xs[0];
    } else {
      assert s == xs[0] + sep + Join(sep, xs[1..]);
      assert s[|xs[0]|..|xs[0]| + |sep|] == sep;
      assert OccursAt(s, sep, |xs[0]|);
      assert Contains(s, sep);
    }
  }

  /** Prefixing a blank does not change what `trim` returns. */
  lemma {:induction false} TrimLeadingBlank(c: char, s: string)
    requires IsBlank(c)
    ensures Trim([c] + s) == Trim(s)
  {
    assert ([c] + s)[1..] == s;
  }

  /** One space on each side of a trimmed, non-empty string is trimmed away. */
  lemma {:induction false} TrimPadded(s: string)
    requires |s| > 0 && !IsBlank(s[0]) && !IsBlank(s[|s| - 1])
    ensures Trim(" " + s + " ") == s
  {
    var padded := " " + s + " ";
    assert padded[1..] == s + " ";
    assert TrimStart(s + " ") == s + " ";
    assert (s + " ")[..|s|] == s;
    assert TrimEnd(s + " ") == TrimEnd(s) == s;
  }

  /** A string with no blank at either end is its own trim. */
  lemma {:induction false} TrimOfTrimmed(s: string)
    requires |s| == 0 || (!IsBlank(s[0]) && !IsBlank(s[|s| - 1]))
    ensures Trim(s) == s
  {
  }

  /** `trim` is idempotent. */
  lemma {:induction false} TrimIdempotent(s: string)
    ensures Trim(Trim(s)) == Trim(s)
  {
    TrimOfTrimmed(Trim(s));
  }
}
